=== FILE: README.md ===
# Two-deck DJ mixing engine — a Dafny model

This project models the core of a browser DJ mixer: two playback decks,
each with a transport (play, pause, seek, rate, load) and a fixed effect
chain (drive waveshaper → sub-bass shelf → low/mid/high EQ → sweep filter →
gain → analyser); a crossfader that splits the two decks into a master
gain feeding both the speakers and a recording tap; and three pieces of
UI-side logic that drive the engine — the deck panel (transport buttons,
track-name and time display, the effect that pushes knob values into the
engine), the recorder panel (an idle/recording session over the master
stream) and the rotary knob (pointer drag to value, value to rotation).

Everything is stated over exact `real`s, `string`s and immutable records
with pure transition functions:

- The audio clock is passed in as `now`. Every audio-parameter write is
  recorded as `Fixed(value)` (an assignment to `.value`) or
  `Ramp(target, timeConstant)` (a `setTargetAtTime`); the ramp itself is
  platform behaviour and is not modelled.
- `Math.cos` and `Math.PI` are uninterpreted: the crossfader takes a
  `Trig(cos, pi)` record, the drive curve an arbitrary positive `pi`.
- Reading, fetching and decoding a file are an oracle argument
  `decoded: Option<Buffer>`. The MediaRecorder's callbacks, the one-second
  timer and the download click are events fed to the recorder session.

Modules: `Common` (Option, byte, min/max/abs), `Text` (decimal rendering of
integers, its parser, the `m:ss` clock parser), `Drive` (waveshaper table),
`DeckEngine` (transport and per-deck parameters), `AudioEngine`
(crossfader, constructor, audio-graph wiring), `DeckView` (deck panel),
`Recorder` (recorder panel), `Knob` (knob control).

The model keeps these behaviours of the code as written:

- `seek` does not clamp the time to the buffer; `pauseTime` becomes the
  requested time exactly. Past the end the restart is accepted. A negative
  offset is rejected by `AudioBufferSourceNode.start` with a `RangeError`,
  so `play` (and a `seek` that restarts a playing deck) then raises after
  installing the new source and the start time, and the deck is left
  stopped with a silent source. The model records this (`StartRejected`,
  `SeekRaises`); the deck panel's only seek is to 0.
- A load replaces the buffer and changes no transport field. In
  particular a running source keeps playing the old buffer, and
  `isPlaying`, `startTime` and `pauseTime` keep their values.
- The position bookkeeping ignores the playback rate. Pausing after Δ
  seconds of clock time advances `pauseTime` by Δ, whatever the rate.
- The low-pass end of the filter sweep is 500 Hz at −100: the mapping is
  20000 − 195·|v| (services/audioEngine.ts:159), although the comment above
  it speaks of 200 Hz.
- The crossfader uses `cos(v·π/2)` and `cos((1−v)·π/2)`. The model proves
  the structural mirror `gainB(v) = gainA(1 − v)` only. The equal-power
  identity would need a trigonometric axiom, and the comment at
  services/audioEngine.ts:240 names both a linear and an equal-power fade.
- Starting a recording is not guarded in the handler itself (the UI only
  shows the start button while idle). It always creates a new recorder and
  resets the counter.

The constructor gives the shaper the two-point curve `[0, 0]` (commented
"Neutral"). That curve maps every sample to 0. The deck panel's effect
replaces it with `setDrive(0)`, which is a null curve (bypass), as soon as
the panel mounts. The model records the curve as written.

## Model

| member | source | states |
|---|---|---|
| DeckEngine.Play | services/audioEngine.ts:86-99 | no-op while playing or without a buffer; otherwise a new source on the current buffer at the stored rate and offset `pauseTime` replaces the old one and the start time makes the position `pauseTime`; the deck plays exactly when the offset is not negative, otherwise the start is rejected (a `RangeError` from the Web Audio API) and the deck stays stopped holding the silent source; validity preserved |
| DeckEngine.Pause | services/audioEngine.ts:101-108 | no-op unless playing with a source; otherwise the source is dropped, the deck stops, and `pauseTime` freezes the position reached at `now`; validity preserved |
| DeckEngine.Seek | services/audioEngine.ts:110-123 | no-op without a buffer; otherwise `pauseTime` is the requested time exactly (no clamping) and so is the implied position; a paused deck keeps its source and start time; a playing deck gets a new source at the requested offset with `startTime = now − time`, and plays on exactly when the time is not negative; the call raises exactly when a playing deck is sent to a negative time |
| DeckEngine.SetRate | services/audioEngine.ts:129-134 | stores the rate; a running source ramps to it with time constant 0.05; no transport field other than the rate changes |
| DeckEngine.Load | services/audioEngine.ts:73-84 | success replaces the buffer, returns its duration and changes nothing else; failure leaves the transport untouched |
| DeckEngine.NewDeck | services/audioEngine.ts:19-59 | a new deck is stopped with no buffer or source, rate 1, position 0; the shaper has the two-point all-zero curve; sub-bass is an 80 Hz low shelf at 0 dB, EQ low a 320 Hz low shelf, mid a 1000 Hz peaking band with Q 1, high a 2500 Hz high shelf, all bands at 0 dB; the filter is all-pass at 20000 Hz; unit gain; FFT size 256 |
| DeckEngine.SetVolume | services/audioEngine.ts:125-127 | only the gain stage changes, toward the given volume |
| DeckEngine.SetEQ | services/audioEngine.ts:136-140 | only the selected band's gain changes (high, mid, otherwise low), toward the given value; the other bands and nodes are unchanged |
| DeckEngine.HighpassCutoff | services/audioEngine.ts:152 | for amounts in (0, 100] the high-pass cutoff lies in (20, 8020] Hz |
| DeckEngine.LowpassCutoff | services/audioEngine.ts:159 | for amounts in [−100, 0) the low-pass cutoff lies in [500, 20000) Hz |
| DeckEngine.SetFilter | services/audioEngine.ts:142-163 | 0 selects all-pass and keeps frequency and Q; a positive amount selects high-pass, a negative one low-pass, each with Q 1 and the cutoff ramping (0.1 s) to the mapped frequency; nothing else changes |
| DeckEngine.SetDrive | services/audioEngine.ts:165-182 | only the shaper curve changes and it is the drive curve for the amount: null exactly when the amount is at most 0.1, and otherwise 44100 entries, 0 at index 22050, strictly increasing, odd about the centre and bounded by the peak magnitude for intensity 10·amount |
| DeckEngine.SubBassGain | services/audioEngine.ts:187 | amounts in [0, 10] give boosts in [0, 15] dB; 0 gives 0 dB |
| DeckEngine.SetSubBass | services/audioEngine.ts:184-189 | only the 80 Hz shelf's gain changes, ramping (0.1 s) to 1.5 dB per unit |
| DeckEngine.PlayThenPause | services/audioEngine.ts:96-105 | playing at t0 and pausing at t1 advances a non-negative `pauseTime` by exactly t1 − t0; after a rejected start the pause is a no-op |
| DeckEngine.ElapsedIgnoresRate | services/audioEngine.ts:91-105 | a play/pause cycle yields the same `pauseTime` whatever rate was set before it |
| DeckEngine.PauseThenPlay | services/audioEngine.ts:96-105 | pausing and resuming at the same instant restores the start time, so the position does not jump; the resume plays exactly when the clock is not before the start time |
| DeckEngine.PlayIdempotent | services/audioEngine.ts:87-98 | a second `play` changes nothing after an accepted start; after a rejected one it repeats the attempt as if it were the first |
| DeckEngine.PauseIdempotent | services/audioEngine.ts:102 | a second `pause` changes nothing |
| DeckEngine.SeekWhilePlaying | services/audioEngine.ts:113-122 | seeking a playing deck makes a source on the same buffer at the new offset and the stored rate; it plays on exactly when the time is not negative, and the call raises exactly when it is |
| DeckEngine.RejectedStartLingers | services/audioEngine.ts:86-108 | after a rejected start the deck is stopped holding a source that `pause` leaves alone and `setRate` still ramps; seeking to 0 and playing then starts a source at offset 0 |
| DeckEngine.LoadWhilePlaying | services/audioEngine.ts:73-87 | a load during playback keeps the running source on the old buffer, and a later `play` is still a no-op |
| DeckEngine.RunPreservesValid | services/audioEngine.ts:73-134 | every sequence of play, pause, seek, rate and load commands keeps: playing only with a source, a source only with a buffer, and a source playing exactly when its offset is not negative (a silent rejected source otherwise) |
| DeckEngine.RunKeepsBuffer | services/audioEngine.ts:73-84 | once a buffer is loaded no command sequence removes it (a failed load keeps the old one) |
| DeckEngine.HighpassIncreasing | services/audioEngine.ts:152 | the high-pass cutoff strictly increases with the amount |
| DeckEngine.LowpassDecreasing | services/audioEngine.ts:159 | the low-pass cutoff strictly decreases as the amount's magnitude grows |
| DeckEngine.FilterEndpoints | services/audioEngine.ts:152-159 | +100 targets 8020 Hz and −100 targets 500 Hz |
| Drive.IndexToInput | services/audioEngine.ts:177 | table indices map into [−1, 1), index 22050 to exactly 0 |
| Drive.DriveCurve | services/audioEngine.ts:165-182 | bypass exactly when the amount is at most 0.1; otherwise 44100 entries, strictly increasing, 0 at index 22050, odd about it (entry i = −entry j when i + j = 44100), every magnitude at most (3+k)(π/9)/(π+k) with k = 10·amount |
| Drive.CurveTableProperties | services/audioEngine.ts:176-180 | the table for intensity k is strictly increasing, zero at the centre, odd about it and bounded by the peak magnitude |
| Drive.FillCurve | services/audioEngine.ts:171-181 | the entry-by-entry loop produces exactly the table `setDrive` installs |
| Drive.ShapeFactors | services/audioEngine.ts:179 | each entry is a positive gain times x/(π + k·abs(x)) |
| Drive.ShapeOdd | services/audioEngine.ts:179 | the transfer function is odd |
| Drive.ShapeIncreasingNonNegative | services/audioEngine.ts:179 | the transfer function strictly increases on non-negative inputs |
| Drive.ShapeIncreasing | services/audioEngine.ts:179 | the transfer function strictly increases over all inputs |
| Drive.ShapeBounded | services/audioEngine.ts:179 | on [−1, 1] its magnitude is at most its value at 1 |
| AudioEngine.GainsMirror | services/audioEngine.ts:241-242 | deck B's gain at v equals deck A's at 1 − v, and vice versa |
| AudioEngine.SetCrossfader | services/audioEngine.ts:238-246 | both crossfader gains ramp (0.01 s) to the two cosine laws, deck B's being deck A's law at 1 − v; decks and master untouched |
| AudioEngine.CrossfaderSymmetric | services/audioEngine.ts:238-246 | moving the fader to 1 − v swaps the two gain ramps |
| AudioEngine.NewEngine | services/audioEngine.ts:207-230 | both decks are exactly the deck constructor's fresh deck (stopped, valid), the master gain is a fixed 1, and each crossfader gain ramps to its equal-power gain at the initial fader position 0.5, the two gains being equal |
| AudioEngine.DeckWiringFollowsRoute | services/audioEngine.ts:61-70 | a deck's `connect` calls join consecutive nodes of the route drive → sub-bass → EQ low → mid → high → filter → gain → analyser → output, no node repeats, and each stage is connected once |
| AudioEngine.MasterFansOut | services/audioEngine.ts:214-226 | the master feeds exactly the speakers and the record destination, the sinks feed nothing, each crossfader gain feeds only the master |
| Text.NatToString | components/Deck.tsx:79 | a non-negative number in a template literal renders as a non-empty run of decimal digits with no leading zero, one digit exactly below 10 and two for 10 to 99 |
| Text.IntToString | components/Deck.tsx:79 | a non-negative integer renders as its decimal digits with no leading zero; a negative one as a minus sign followed by the rendering of its magnitude |
| Text.ParseNatToString | components/Deck.tsx:79 | the decimal rendering reads back to the number it rendered and has no leading zero (it renders at width 1) |
| Text.Pad2 | components/Recorder.tsx:66 | the field renders the number in decimal padded to two digits: digits reading back to it, exactly two below 100, a leading 0 below 10 and no leading zero from 100 on |
| Text.RendersUnique | components/Recorder.tsx:66 | two strings that render the same number at the same padded width are the same string, so a `Renders` contract fixes the display exactly |
| Text.ParseClockOfParts | components/Deck.tsx:79 | a display joining two digit strings with a colon reads back to the two values |
| DeckView.ExtensionUnique | components/Deck.tsx:44 | a file name has at most one position where the trailing-extension pattern matches |
| DeckView.ClockDisplay | components/Deck.tsx:79 | whole minutes and seconds of the minute display as the minutes in decimal without padding, a colon and the seconds in exactly two digits (4 characters below 10 minutes), reading back as the two numbers |
| DeckView.FormatTime | components/Deck.tsx:76-80 | for non-negative times the display has at least 4 characters, exactly 4 below ten minutes |
| DeckView.ClockFields | components/Deck.tsx:77-78 | for non-negative times the truncated minutes and the JavaScript-remainder seconds are the whole seconds divided by 60 and their remainder |
| DeckView.FormatTimeRoundTrip | components/Deck.tsx:76-80 | a non-negative time displays as its whole minutes in decimal without padding, a colon, and its whole seconds of the minute in exactly two digits, and parses back to those two numbers |
| DeckView.DurationLabel | components/Deck.tsx:187 | a positive duration shows `formatTime(duration)`, a non-positive one "0:00"; either way the minutes field renders the shown whole minutes with no padding and the seconds field renders the seconds of the minute in exactly two digits, and the display parses back to both |
| DeckView.ScanForExtension | components/Deck.tsx:44 | the backward scan finds the trailing-extension dot if there is one, and reports none only when there is none |
| DeckView.ExtensionStart | components/Deck.tsx:44 | a trailing extension position is found exactly when one exists |
| DeckView.TrackName | components/Deck.tsx:44 | the result is a prefix of the file name; it cuts exactly at the trailing `.ext` (one or more characters, no '.' or '/'), and equals the name exactly when there is none |
| DeckView.StatusLabel | components/Deck.tsx:109 | one of the three labels; "LOADING DATA..." exactly while loading; "NO DISC" exactly when not loading and the track name is null or empty |
| DeckView.TrackLabel | components/Deck.tsx:184 | the track name when present and non-empty, else "---" |
| DeckView.TogglePlay | components/Deck.tsx:60-68 | pauses the engine when the UI says playing, else asks it to play; flips the UI flag unless that start is rejected, when the handler raises and the UI is unchanged; nothing else in the UI changes; without a buffer the engine does not move; with a buffer a UI that agreed with the engine still agrees |
| DeckView.TogglePlayWithoutDisc | components/Deck.tsx:60-68 | with no buffer, pressing play shows "playing" while the engine stays stopped |
| DeckView.Cue | components/Deck.tsx:70-74 | leaves the UI stopped and the engine paused, in agreement, at offset 0 when a buffer is loaded |
| DeckView.StartLoading | components/Deck.tsx:50 | a load in flight shows "LOADING DATA..." |
| DeckView.UrlLoad | components/Deck.tsx:49-58 | success sets the track name and duration, and the engine's transport changes in its buffer only (position, start time, playing flag and source kept); no other engine stage changes; failure leaves UI and engine as they were; loading ends either way |
| DeckView.FileLoad | components/Deck.tsx:39-47 | no file: no-op; success shows the extension-stripped name and the duration, and the engine's transport changes in its buffer only while no other engine stage changes; failure leaves UI and engine but keeps loading set |
| DeckView.FileLoadFailureStaysLoading | components/Deck.tsx:39-47 | after a failed decode of a chosen file the status stays "LOADING DATA..." |
| DeckView.FileLoadSettled | components/Deck.tsx:39-47 | the handler with loading ended on both outcomes: never left "LOADING DATA...", same result as `FileLoad` on success |
| DeckView.SyncFx | components/Deck.tsx:27-37 | each UI value reaches its engine target (volume, three EQ bands); the transport is exactly `setRate` of the UI rate, so a running source's playback rate ramps to it; filter 0 gives all-pass, a positive value a high-pass and a negative one a low-pass, each with Q 1 and the cutoff ramping to the mapped frequency; the shaper curve is the drive curve for the drive value (strictly increasing, 0 at the centre, bounded by the peak magnitude), a missing drive or sub-bass value being pushed as 0, i.e. shaper bypass and a 0 dB boost; transport position untouched |
| DeckView.ApplyKnob | components/Deck.tsx:217-233 | a knob's change handler sets the field it edits and keeps every other field of the deck state, the other knobs, the track, transport flags, faders, duration and current time included |
| DeckView.DefaultsInKnobRanges | constants.ts:2-15 | the default deck state a panel mounts with is stopped, without a track, and has every knob within its range, so the knob and engine bounds apply from mount |
| DeckView.KnobDragKeepsRanges | components/Deck.tsx:217-233 | dragging any panel knob keeps every knob-edited field within its knob's range |
| DeckView.SyncFxBounded | components/Deck.tsx:27-37 | with knob fields in range, the engine receives a cutoff in (20, 8020] Hz (high-pass) or [500, 20000) Hz (low-pass), a boost in [0, 15] dB and EQ gains in [−12, 12] dB |
| Recorder.Start | components/Recorder.tsx:20-50 | a recorder for audio/webm with Opus exists, chunks are empty, recording is on, the counter is 0 and the timer handle holds a new interval; blob and modal untouched; an interval the handle already held is not cleared and joins the leaked ones, so one more interval fires |
| Recorder.Tick | components/Recorder.tsx:47-49 | a second adds one per firing interval (the handle's and every leaked one): exactly 1 with only the handle's interval, nothing with none |
| Recorder.DataAvailable | components/Recorder.tsx:30-34 | a chunk with data is appended at the end; an empty one changes nothing |
| Recorder.Stop | components/Recorder.tsx:52-61 | no-op unless a recorder exists and recording is on; otherwise recording stops and the timer is cleared, nothing else changes |
| Recorder.Stopped | components/Recorder.tsx:36-40 | the blob is set, typed audio/webm, holding the chunks' bytes joined in order (as many as the chunks hold); the save modal opens |
| Recorder.ConcatSize | components/Recorder.tsx:37 | the joined bytes number the sum of the chunk sizes |
| Recorder.CloseModal | components/Recorder.tsx:129 | only the modal flag changes, to closed |
| Recorder.SliceTo | components/Recorder.tsx:75 | the result is a prefix of length min(n, length) |
| Recorder.DownloadName | components/Recorder.tsx:75 | "NexusDJ-Set-" + the first 10 characters of the timestamp + ".webm" |
| Recorder.DownloadRecording | components/Recorder.tsx:69-81 | no-op without a blob; otherwise the blob is saved under the dated name and the modal closes |
| Recorder.FormatTime | components/Recorder.tsx:63-67 | minutes and seconds of the minute each rendered in decimal padded to two digits, joined by a colon; exactly 5 characters below 6000 seconds; parses back to the minutes and the seconds of the minute |
| Recorder.TicksCount | components/Recorder.tsx:47-49 | n seconds add n per firing interval and change nothing else |
| Recorder.StartThenTicks | components/Recorder.tsx:43-49 | after a start from a session with no interval running or leaked, n seconds show exactly n; in general n times the intervals firing after the start |
| Recorder.NonEmpty | components/Recorder.tsx:31 | the kept chunks are drawn from the received ones and all carry data |
| Recorder.ReceiveKeepsNonEmpty | components/Recorder.tsx:30-34 | after any data events the chunk list is the earlier list followed by the received chunks with data, in arrival order |
| Recorder.ConcatNonEmpty | components/Recorder.tsx:31-37 | dropping empty chunks does not change the joined bytes |
| Recorder.ConcatAppend | components/Recorder.tsx:37 | joining a concatenation of chunk lists is the concatenation of their joins |
| Recorder.SessionBlob | components/Recorder.tsx:28-40 | start, any data events, stop and the stop notification give a blob of exactly the received bytes in order, with the modal open and recording and timer off |
| Recorder.FirstSessionBlob | components/Recorder.tsx:11-40 | from the mounted state (no recording, no blob, no chunks), a start, any data and a stop give a blob of exactly the received bytes, with the modal open and the counter at 0 |
| Recorder.SessionBlobLateData | components/Recorder.tsx:30-54 | the same holds when some data arrives after the stop button and before the stop notification: the blob is every received byte in arrival order |
| Recorder.DoubleStartLeaksTimer | components/Recorder.tsx:47-61 | a second start while recording leaves the first interval behind: after a stop the panel is idle and the timer handle empty, yet the counter still advances every second |
| Recorder.RunKeepsOneTimer | components/Recorder.tsx:47-61 | driven through its own buttons (start shown only while idle, stop only while recording; components/Recorder.tsx:96-111), every event sequence from a coherent state keeps the timer handle in step with recording and leaks no interval, so exactly one interval fires while recording and none otherwise |
| Recorder.StopIdempotent | components/Recorder.tsx:52-61 | a second stop changes nothing |
| Knob.Clamp | components/Knob.tsx:28 | the result is at least the minimum, at most the maximum when the bounds are ordered, and the input itself when in range |
| Knob.ClampMonotone | components/Knob.tsx:28 | the clamp preserves order |
| Knob.MouseDown | components/Knob.tsx:49-53 | starts a drag recording the pointer height and the current value |
| Knob.MouseUp | components/Knob.tsx:32-35 | ends the drag and keeps the recorded start |
| Knob.MouseMove | components/Knob.tsx:21-30 | emits a value exactly while dragging, and it lies within [min, max] |
| Knob.DragMonotone | components/Knob.tsx:24-28 | a higher pointer (smaller clientY) never gives a smaller value |
| Knob.DragAtRest | components/Knob.tsx:24-28 | no movement emits the start value when it is in range |
| Knob.FullRangeSpan | components/Knob.tsx:26 | a 200 px upward drag from the minimum reaches the maximum |
| Knob.DragFromMinimumLinear | components/Knob.tsx:24-28 | a drag of px ≤ 200 pixels up from the minimum emits min + px/200 · (max − min), so a shorter drag stays below the maximum of a non-empty range |
| Knob.Rotation | components/Knob.tsx:55-56 | −135° at the minimum, +135° at the maximum, within [−135, 135] for values in range |
| Knob.RotationMonotone | components/Knob.tsx:55-56 | larger values rotate further |
| Knob.SizePx | components/Knob.tsx:58 | small 40 px, large 80 px, medium (the default) 56 px |

## Findings

| source | as written | input that shows it | evidently intended | confidence | as-written member | corrected member |
|---|---|---|---|---|---|---|
| components/Deck.tsx:39-47 | the file handler sets loading, awaits the load and only then clears loading, with no failure handling | choose a file that fails to decode: the rejected await skips `setLoading(false)` and the status line shows "LOADING DATA..." until a URL load finishes (with success or failure) or a file load succeeds | loading ends on both outcomes, as in the URL handler at components/Deck.tsx:49-58 | high, not executed | DeckView.FileLoadFailureStaysLoading | DeckView.FileLoadSettled |

## Left out

- Web Audio signal processing: biquad responses, the waveshaper's
  application of its curve to samples, the analyser FFT
  (`getByteFrequencyData`) and the exponential ramps of `setTargetAtTime`
  are platform code. Each parameter write is recorded as a value or a
  target with a time constant. The ramp's start time (the clock reading
  passed to `setTargetAtTime`) is not recorded.
- Float32 storage of the drive curve and IEEE arithmetic in general: the
  model uses exact reals.
- `AudioEngine.resume`, `getAudioStream` and the `resume` calls in the
  handlers: the audio context's suspended/running state is platform state.
- Fetching, file reading and decoding: an oracle `Option<Buffer>`. Network
  and decode errors are not told apart, and neither is the alert shown on
  a failed URL load.
- Exceptions: a raise of the deck engine's transport is modelled as the
  predicate that says when it happens and the state it leaves. What the browser does with an uncaught
  error in an event handler is not modelled.
- Asynchrony: the model runs each handler to completion. Two loads in
  flight at once and a handler's stale copy of the UI state are not
  modelled.
- The FX sync effect is modelled as its own step (`SyncFx`); React's
  scheduling of it after each state change is not modelled.
- Recorder.Start: the `MediaRecorder` constructor (components/Recorder.tsx:25)
  can throw, for instance a `NotSupportedError` when the browser cannot
  record audio/webm with Opus. The model always creates the recorder, so
  it does not cover a start that raises before recording begins.
- Recorder.Start: on a second start while recording, the earlier
  `MediaRecorder` is dropped without being stopped. The model keeps only
  the new recorder; it does count the earlier interval that keeps firing
  (`leakedTimers`).
- Recorder platform APIs: MediaRecorder internals, the Blob object, URL
  creation, the DOM download link and the share buttons (`window.open`)
  are I/O. The timer's interval scheduling becomes `Tick` events; the
  timestamp is an argument.
- The input handlers of the pitch fader (components/Deck.tsx:263-271) and
  of the mixer's channel faders (components/Mixer.tsx:71-74 and 97-100,
  through App.tsx:15-16) are not modelled; the `rate` and `volume` fields
  they write are, and `SyncFx` pushes them to the engine. The master
  fader and the VU meter are rendering (the master volume is never wired
  to the engine).
- The equal-power identity gainA² + gainB² = 1 needs a trigonometric
  axiom about `cos`, which the model leaves uninterpreted.
- The AI advice service, the visualiser, the app shell and the build
  configuration are outside the core.

=== FILE: audio_engine.dfy ===
/**
 The two-deck engine (`AudioEngine`): two decks each feeding a crossfader
 gain, both summed into a master gain that fans out to the speakers and to
 the recording destination. Cosine and π are passed in as an uninterpreted
 `Trig` record.
 */
module AudioEngine {
  import opened Common
  import DeckEngine

  /** The platform's `Math.cos` and `Math.PI`, left uninterpreted. */
  datatype Trig = Trig(cos: real -> real, pi: real)

  datatype Engine = Engine(
    deckA: DeckEngine.Deck,
    deckB: DeckEngine.Deck,
    crossfaderA: DeckEngine.Param,
    crossfaderB: DeckEngine.Param,
    master: DeckEngine.Param)

  const CrossfaderTimeConstant: real := 0.01

  /** The crossfader position the constructor starts from. */
  const InitialCrossfader: real := 0.5

  /** Deck A's gain at crossfader position `val` (0 = deck A only). */
  function GainA(trig: Trig, val: real): real
  {
    trig.cos(val * 0.5 * trig.pi)
  }

  /** Deck B's gain at crossfader position `val`. */
  function GainB(trig: Trig, val: real): real
  {
    trig.cos((1.0 - val) * 0.5 * trig.pi)
  }

  /** The two gain laws mirror each other about the centre of the fader. */
  lemma GainsMirror(trig: Trig, val: real)
    ensures GainB(trig, val) == GainA(trig, 1.0 - val)
    ensures GainA(trig, val) == GainB(trig, 1.0 - val)
  {
    assert (1.0 - (1.0 - val)) == val;
  }

  /**
   `setCrossfader(val)`: both crossfader gains ramp toward the two laws at
   `val`; the decks and the master gain are untouched.
   */
  function SetCrossfader(e: Engine, trig: Trig, val: real): (r: Engine)
    ensures r.deckA == e.deckA && r.deckB == e.deckB && r.master == e.master
    ensures r.crossfaderA.Target() == GainA(trig, val)
    ensures r.crossfaderB.Target() == GainB(trig, val)
    ensures r.crossfaderB.Target() == GainA(trig, 1.0 - val)
    ensures r.crossfaderA == DeckEngine.Ramp(r.crossfaderA.Target(), CrossfaderTimeConstant)
    ensures r.crossfaderB == DeckEngine.Ramp(r.crossfaderB.Target(), CrossfaderTimeConstant)
  {
    GainsMirror(trig, val);
    e.(crossfaderA := DeckEngine.Ramp(GainA(trig, val), CrossfaderTimeConstant),
       crossfaderB := DeckEngine.Ramp(GainB(trig, val), CrossfaderTimeConstant))
  }

  /** Moving the fader to the mirrored position swaps the two gain ramps. */
  lemma CrossfaderSymmetric(e: Engine, trig: Trig, val: real)
    ensures SetCrossfader(e, trig, 1.0 - val).crossfaderA == SetCrossfader(e, trig, val).crossfaderB
    ensures SetCrossfader(e, trig, 1.0 - val).crossfaderB == SetCrossfader(e, trig, val).crossfaderA
  {
    GainsMirror(trig, val);
  }

  /**
   The constructor: two fresh decks, unit crossfader and master gains, then
   `setCrossfader(0.5)`, which gives both decks the same gain.
   */
  function NewEngine(trig: Trig): (e: Engine)
    ensures e.crossfaderA == e.crossfaderB
    ensures e.deckA == e.deckB
    ensures !e.deckA.transport.isPlaying && DeckEngine.Valid(e.deckA.transport)
    ensures e.master.Target() == 1.0
    ensures e.deckA == DeckEngine.NewDeck() && e.deckB == DeckEngine.NewDeck()
    ensures e.master == DeckEngine.Fixed(1.0)
    ensures e.crossfaderA == DeckEngine.Ramp(GainA(trig, InitialCrossfader), CrossfaderTimeConstant)
    ensures e.crossfaderB == DeckEngine.Ramp(GainB(trig, InitialCrossfader), CrossfaderTimeConstant)
  {
    var unit := DeckEngine.Fixed(1.0);
    var e := Engine(DeckEngine.NewDeck(), DeckEngine.NewDeck(), unit, unit, unit);
    GainsMirror(trig, InitialCrossfader);
    SetCrossfader(e, trig, InitialCrossfader)
  }

  // ---- the audio graph the constructors wire up ----

  datatype DeckId = A | B

  datatype Stage = DriveStage | SubBassStage | EqLowStage | EqMidStage | EqHighStage | FilterStage | GainStage | AnalyserStage

  datatype Node =
    | DeckNode(deck: DeckId, stage: Stage)
    | CrossfaderNode(deck: DeckId)
    | MasterNode
    | Speakers
    | RecordDestination

  /** The audio graph as the list of its `connect` calls, each from a node to the node it feeds. */
  type Wiring = seq<(Node, Node)>

  /** The documented route through one deck, from the shaper to the deck's output node. */
  function DeckRoute(id: DeckId, destination: Node): seq<Node>
  {
    [ DeckNode(id, DriveStage), DeckNode(id, SubBassStage), DeckNode(id, EqLowStage),
      DeckNode(id, EqMidStage), DeckNode(id, EqHighStage), DeckNode(id, FilterStage),
      DeckNode(id, GainStage), DeckNode(id, AnalyserStage), destination ]
  }

  /** The eight `connect` calls of a deck's constructor, ending at `destination`. */
  function DeckWiring(id: DeckId, destination: Node): Wiring
  {
    [ (DeckNode(id, DriveStage), DeckNode(id, SubBassStage)),
      (DeckNode(id, SubBassStage), DeckNode(id, EqLowStage)),
      (DeckNode(id, EqLowStage), DeckNode(id, EqMidStage)),
      (DeckNode(id, EqMidStage), DeckNode(id, EqHighStage)),
      (DeckNode(id, EqHighStage), DeckNode(id, FilterStage)),
      (DeckNode(id, FilterStage), DeckNode(id, GainStage)),
      (DeckNode(id, GainStage), DeckNode(id, AnalyserStage)),
      (DeckNode(id, AnalyserStage), destination) ]
  }

  /** The engine constructor's own `connect` calls: the master into both sinks, the crossfader gains into the master. */
  function BusWiring(): Wiring
  {
    [ (MasterNode, Speakers),
      (MasterNode, RecordDestination),
      (CrossfaderNode(A), MasterNode),
      (CrossfaderNode(B), MasterNode) ]
  }

  /** The whole graph: the engine's connections and each deck's chain into its crossfader gain. */
  function EngineWiring(): Wiring
  {
    BusWiring() + DeckWiring(A, CrossfaderNode(A)) + DeckWiring(B, CrossfaderNode(B))
  }

  /**
   A deck's chain is the fixed documented route: its `connect` calls join
   consecutive nodes of the route, in order, and no node of the route occurs
   twice, so each stage feeds exactly one other and the signal passes every
   stage once.
   */
  lemma DeckWiringFollowsRoute(id: DeckId)
    ensures var w, route := DeckWiring(id, CrossfaderNode(id)), DeckRoute(id, CrossfaderNode(id));
      && |w| == |route| - 1
      && (forall i :: 0 <= i < |w| ==> w[i] == (route[i], route[i + 1]))
      && (forall i, j :: 0 <= i < j < |route| ==> route[i] != route[j])
      && (forall i, j :: 0 <= i < |w| && 0 <= j < |w| && w[i].0 == w[j].0 ==> i == j)
  {
  }

  /**
   Every connection out of the master goes to the speakers or the recording
   destination, and both are connected; the two sinks feed nothing; each
   crossfader gain feeds only the master.
   */
  lemma MasterFansOut()
    ensures var w := EngineWiring();
      && (MasterNode, Speakers) in w && (MasterNode, RecordDestination) in w
      && (forall i :: 0 <= i < |w| && w[i].0 == MasterNode ==> w[i].1 == Speakers || w[i].1 == RecordDestination)
      && (forall i :: 0 <= i < |w| ==> w[i].0 != Speakers && w[i].0 != RecordDestination)
      && (forall i :: 0 <= i < |w| && w[i].0.CrossfaderNode? ==> w[i].1 == MasterNode)
  {
    var w := EngineWiring();
    assert w[0] == (MasterNode, Speakers) && w[1] == (MasterNode, RecordDestination);
    forall i | 4 <= i < |w| ensures w[i].0.DeckNode? || w[i].1.CrossfaderNode? {
      if i < 12 {
        assert w[i] == DeckWiring(A, CrossfaderNode(A))[i - 4];
      } else {
        assert w[i] == DeckWiring(B, CrossfaderNode(B))[i - 12];
      }
    }
  }
}

=== FILE: common.dfy ===
/** Small shared datatypes used by every other module of the model. */
module Common {

  /** A value that may be absent: a TypeScript `T | null`. */
  datatype Option<T> = None | Some(value: T)

  /** An octet of an encoded recording. */
  newtype byte = x: int | 0 <= x < 256

  function Min(a: real, b: real): real { if a <= b then a else b }

  function Max(a: real, b: real): real { if a >= b then a else b }

  function Abs(x: real): real { if x < 0.0 then -x else x }
}

=== FILE: deck_engine.dfy ===
/**
 One deck of the mixing engine (`DeckEngine`): the transport state machine
 over a decoded buffer and the parameters of the fixed effect chain. The
 audio clock is the `now` argument; every parameter write is recorded as
 the value or ramp target the node is given.
 */
module DeckEngine {
  import opened Common
  import Drive

  /** A decoded buffer; only its length in seconds matters to the model. */
  datatype Buffer = Buffer(duration: real)

  /**
   An audio parameter as last written: `Fixed` for an assignment to
   `.value`, `Ramp` for `setTargetAtTime(target, now, timeConstant)`.
   */
  datatype Param = Fixed(value: real) | Ramp(target: real, timeConstant: real)
  {
    /** The value the parameter settles at. */
    function Target(): real
    {
      match this
      case Fixed(v) => v
      case Ramp(t, _) => t
    }
  }

  /**
   A buffer source: what it plays, from which offset, at which rate. A
   source whose `start` was rejected (a negative offset) exists but is silent.
   */
  datatype Source = Source(buffer: Buffer, offset: real, rate: Param)

  /**
   The transport fields of a deck. `startTime` is the clock reading at
   which offset 0 would have started; `pauseTime` the offset to resume from.
   */
  datatype Transport = Transport(
    isPlaying: bool,
    source: Option<Source>,
    buffer: Option<Buffer>,
    startTime: real,
    pauseTime: real,
    playbackRate: real)

  /**
   The state every reachable transport is in: playing only with a source; a
   source needs a buffer, and it is playing exactly when its `start` was
   accepted, i.e. its offset is not negative.
   */
  predicate Valid(t: Transport)
  {
    && (t.isPlaying ==> t.source.Some?)
    && (t.source.Some? ==> t.buffer.Some? && (t.isPlaying <==> t.source.value.offset >= 0.0))
  }

  /**
   The elapsed position the transport bookkeeping implies at clock `now`:
   clock time since `startTime` while playing, `pauseTime` while paused.
   The playback rate plays no part in it.
   */
  function Position(t: Transport, now: real): real
  {
    if t.isPlaying then now - t.startTime else t.pauseTime
  }

  const InitialTransport := Transport(false, None, None, 0.0, 0.0, 1.0)

  /** Ramp time constants the setters use, in seconds. */
  const VolumeTimeConstant: real := 0.01
  const RateTimeConstant: real := 0.05
  const EqTimeConstant: real := 0.05
  const FilterTimeConstant: real := 0.1
  const SubBassTimeConstant: real := 0.1

  /**
   Whether `play()` raises: it gets as far as `source.start(0, pauseTime)`,
   and the Web Audio API rejects a negative offset with a `RangeError`.
   */
  predicate StartRejected(t: Transport)
  {
    !t.isPlaying && t.buffer.Some? && t.pauseTime < 0.0
  }

  /**
   `play()`: nothing happens while playing or with no buffer. Otherwise a
   fresh source on the current buffer at the stored rate replaces the old
   one and `startTime` is set so that the position is `pauseTime`. The start
   then either succeeds and the deck plays, or is rejected
   (`StartRejected`): the call raises and the deck stays stopped, holding
   the silent source.
   */
  function Play(t: Transport, now: real): (r: Transport)
    ensures t.isPlaying || t.buffer.None? ==> r == t
    ensures !t.isPlaying && t.buffer.Some? ==>
      && r.source == Some(Source(t.buffer.value, t.pauseTime, Fixed(t.playbackRate)))
      && r.startTime == now - t.pauseTime
      && r.pauseTime == t.pauseTime
      && (r.isPlaying <==> !StartRejected(t))
      && Position(r, now) == t.pauseTime
    ensures r.buffer == t.buffer && r.playbackRate == t.playbackRate
    ensures Valid(t) ==> Valid(r)
  {
    if t.isPlaying || t.buffer.None? then t
    else
      t.(source := Some(Source(t.buffer.value, t.pauseTime, Fixed(t.playbackRate))),
         startTime := now - t.pauseTime,
         isPlaying := t.pauseTime >= 0.0)
  }

  /**
   `pause()`: nothing happens unless playing with a source; otherwise the
   source is dropped and `pauseTime` freezes the position reached at `now`.
   */
  function Pause(t: Transport, now: real): (r: Transport)
    ensures !t.isPlaying || t.source.None? ==> r == t
    ensures t.isPlaying && t.source.Some? ==>
      && !r.isPlaying && r.source.None?
      && r.pauseTime == Position(t, now)
      && r.startTime == t.startTime
    ensures r.buffer == t.buffer && r.playbackRate == t.playbackRate
    ensures Valid(t) ==> Valid(r) && !r.isPlaying
  {
    if !t.isPlaying || t.source.None? then t
    else t.(pauseTime := now - t.startTime, isPlaying := false, source := None)
  }

  /**
   Whether `seek(time)` raises: a playing deck is restarted, and the restart
   is rejected.
   */
  predicate SeekRaises(t: Transport, time: real, now: real)
  {
    t.buffer.Some? && t.isPlaying && StartRejected(Pause(t, now).(pauseTime := time))
  }

  /**
   `seek(time)`: nothing happens without a buffer. Otherwise a playing deck
   is paused, `pauseTime` becomes `time` exactly (it is not clamped to the
   buffer), and a deck that was playing is started again from there, which
   raises and leaves it stopped when `time` is negative.
   */
  function Seek(t: Transport, time: real, now: real): (r: Transport)
    ensures t.buffer.None? ==> r == t
    ensures Valid(t) ==> Valid(r)
    ensures Valid(t) ==> (SeekRaises(t, time, now) <==> t.buffer.Some? && t.isPlaying && time < 0.0)
    ensures Valid(t) && t.buffer.Some? ==>
      && r.pauseTime == time
      && r.isPlaying == (t.isPlaying && time >= 0.0)
      && Position(r, now) == time
      && (t.isPlaying ==>
            r.startTime == now - time
            && r.source == Some(Source(t.buffer.value, time, Fixed(t.playbackRate))))
      && (!t.isPlaying ==> r.startTime == t.startTime && r.source == t.source)
    ensures r.buffer == t.buffer && r.playbackRate == t.playbackRate
  {
    if t.buffer.None? then t
    else
      var wasPlaying := t.isPlaying;
      var paused := if t.isPlaying then Pause(t, now) else t;
      var moved := paused.(pauseTime := time);
      if wasPlaying then Play(moved, now) else moved
  }

  /**
   `setRate(val)`: stores the rate for the next `play`, and ramps a running
   source toward it; the transport position is not touched.
   */
  function SetRate(t: Transport, val: real): (r: Transport)
    ensures r.playbackRate == val
    ensures r.isPlaying == t.isPlaying && r.buffer == t.buffer
    ensures r.startTime == t.startTime && r.pauseTime == t.pauseTime
    ensures r.source.Some? <==> t.source.Some?
    ensures r.source.Some? ==>
      r.source.value.rate == Ramp(val, RateTimeConstant)
      && r.source.value.buffer == t.source.value.buffer
      && r.source.value.offset == t.source.value.offset
    ensures Valid(t) ==> Valid(r)
  {
    match t.source
    case None => t.(playbackRate := val)
    case Some(s) => t.(playbackRate := val, source := Some(s.(rate := Ramp(val, RateTimeConstant))))
  }

  /** What a load returns: the new transport and the duration, or `None` when loading failed. */
  datatype Loaded = Loaded(transport: Transport, duration: Option<real>)

  /**
   `loadFile` / `loadUrl`, with reading, fetching and decoding abstracted as
   the `decoded` outcome. On success the buffer is replaced and its duration
   returned; nothing else changes, so a running source keeps playing the old
   buffer. On failure the transport is untouched.
   */
  function Load(t: Transport, decoded: Option<Buffer>): (r: Loaded)
    ensures decoded.None? ==> r.transport == t && r.duration.None?
    ensures decoded.Some? ==>
      && r.transport.buffer == decoded
      && r.duration == Some(decoded.value.duration)
      && r.transport.(buffer := t.buffer) == t
    ensures Valid(t) ==> Valid(r.transport)
  {
    match decoded
    case None => Loaded(t, None)
    case Some(b) => Loaded(t.(buffer := Some(b)), Some(b.duration))
  }

  // ---- the effect chain ----

  datatype FilterKind = Allpass | Highpass | Lowpass | Lowshelf | Highshelf | Peaking

  datatype Biquad = Biquad(kind: FilterKind, frequency: Param, q: Param, gain: Param)

  /** The three EQ bands `setEQ` chooses between. */
  datatype Band = High | Mid | Low

  /**
   A deck: its transport and the nodes of the chain drive -> sub-bass ->
   EQ low -> EQ mid -> EQ high -> filter -> gain -> analyser. `drive` is the
   waveshaper curve, `None` for a null curve (bypass).
   */
  datatype Deck = Deck(
    transport: Transport,
    drive: Option<seq<real>>,
    subBass: Biquad,
    eqLow: Biquad,
    eqMid: Biquad,
    eqHigh: Biquad,
    filter: Biquad,
    gain: Param,
    fftSize: nat)

  /** Web Audio defaults for a new biquad of the given kind. */
  function DefaultBiquad(kind: FilterKind, frequency: real): Biquad
  {
    Biquad(kind, Fixed(frequency), Fixed(1.0), Fixed(0.0))
  }

  /**
   The constructor's configuration: a two-point curve on the shaper, an
   80 Hz low shelf at 0 dB, shelves at 320 Hz and 2500 Hz, a 1000 Hz peak
   with Q 1, an all-pass filter at 20000 Hz, unit gain, FFT size 256.
   */
  function NewDeck(): (d: Deck)
    ensures Valid(d.transport) && !d.transport.isPlaying && d.transport.buffer.None?
    ensures d.transport.source.None? && d.transport.playbackRate == 1.0
    ensures Position(d.transport, 0.0) == 0.0
    ensures d.drive == Some([0.0, 0.0])
    ensures d.subBass.kind == Lowshelf && d.subBass.frequency.Target() == 80.0 && d.subBass.gain.Target() == 0.0
    ensures BandNode(d, Low).kind == Lowshelf && BandNode(d, Low).frequency.Target() == 320.0
    ensures BandNode(d, Mid).kind == Peaking && BandNode(d, Mid).frequency.Target() == 1000.0 && BandNode(d, Mid).q.Target() == 1.0
    ensures BandNode(d, High).kind == Highshelf && BandNode(d, High).frequency.Target() == 2500.0
    ensures forall b :: BandNode(d, b).gain.Target() == 0.0
    ensures d.filter.kind == Allpass && d.filter.frequency.Target() == 20000.0
    ensures d.gain.Target() == 1.0 && d.fftSize == 256
  {
    Deck(
      InitialTransport,
      Some([0.0, 0.0]),
      DefaultBiquad(Lowshelf, 80.0),
      DefaultBiquad(Lowshelf, 320.0),
      DefaultBiquad(Peaking, 1000.0),
      DefaultBiquad(Highshelf, 2500.0),
      DefaultBiquad(Allpass, 20000.0),
      Fixed(1.0),
      256)
  }

  /** `setVolume(val)`: only the gain stage moves, toward `val`. */
  function SetVolume(d: Deck, val: real): (r: Deck)
    ensures r.gain.Target() == val
    ensures r.(gain := d.gain) == d
  {
    d.(gain := Ramp(val, VolumeTimeConstant))
  }

  /** The band node `setEQ` writes to: `High`, `Mid`, and otherwise the low shelf. */
  function BandNode(d: Deck, band: Band): Biquad
  {
    match band
    case High => d.eqHigh
    case Mid => d.eqMid
    case Low => d.eqLow
  }

  /** `setEQ(type, val)`: the selected band's gain ramps toward `val`; every other node is left as it was. */
  function SetEQ(d: Deck, band: Band, val: real): (r: Deck)
    ensures BandNode(r, band).gain.Target() == val
    ensures BandNode(r, band).(gain := BandNode(d, band).gain) == BandNode(d, band)
    ensures forall other :: other != band ==> BandNode(r, other) == BandNode(d, other)
    ensures r.(eqHigh := d.eqHigh, eqMid := d.eqMid, eqLow := d.eqLow) == d
  {
    match band
    case High => d.(eqHigh := d.eqHigh.(gain := Ramp(val, EqTimeConstant)))
    case Mid => d.(eqMid := d.eqMid.(gain := Ramp(val, EqTimeConstant)))
    case Low => d.(eqLow := d.eqLow.(gain := Ramp(val, EqTimeConstant)))
  }

  /** High-pass cutoff for a positive filter amount: 20 Hz plus 80 Hz per unit. */
  function HighpassCutoff(val: real): (f: real)
    ensures 0.0 < val <= 100.0 ==> 20.0 < f <= 8020.0
  {
    20.0 + (val / 100.0) * 8000.0
  }

  /** Low-pass cutoff for a negative filter amount: down from 20000 Hz by 195 Hz per unit. */
  function LowpassCutoff(val: real): (f: real)
    ensures -100.0 <= val < 0.0 ==> 500.0 <= f < 20000.0
  {
    20000.0 - (Abs(val) / 100.0) * 19500.0
  }

  /**
   `setFilter(val)`: 0 turns the filter all-pass and leaves its frequency
   and Q as they were; a positive amount selects a high-pass and a negative
   one a low-pass, with the cutoff ramping to the mapped frequency and Q set
   to 1. No other node changes.
   */
  function SetFilter(d: Deck, val: real): (r: Deck)
    ensures r.(filter := d.filter) == d
    ensures r.filter.gain == d.filter.gain
    ensures val == 0.0 ==> r.filter == d.filter.(kind := Allpass)
    ensures val > 0.0 ==>
      r.filter.kind == Highpass && r.filter.q == Fixed(1.0)
      && r.filter.frequency == Ramp(HighpassCutoff(val), FilterTimeConstant)
    ensures val < 0.0 ==>
      r.filter.kind == Lowpass && r.filter.q == Fixed(1.0)
      && r.filter.frequency == Ramp(LowpassCutoff(val), FilterTimeConstant)
  {
    if val == 0.0 then d.(filter := d.filter.(kind := Allpass))
    else if val > 0.0 then
      d.(filter := d.filter.(kind := Highpass,
                             frequency := Ramp(20.0 + (val / 100.0) * 8000.0, FilterTimeConstant),
                             q := Fixed(1.0)))
    else
      d.(filter := d.filter.(kind := Lowpass,
                             frequency := Ramp(20000.0 - (Abs(val) / 100.0) * 19500.0, FilterTimeConstant),
                             q := Fixed(1.0)))
  }

  /** `setDrive(amount)`: replaces the shaper curve, bypassing it at small amounts. */
  function SetDrive(d: Deck, amount: real, pi: real): (r: Deck)
    requires pi > 0.0
    ensures r.(drive := d.drive) == d
    ensures r.drive.None? <==> amount <= Drive.BypassThreshold
    ensures r.drive.Some? ==> |r.drive.value| == Drive.CurveLength && r.drive.value[Drive.Centre] == 0.0
    ensures r.drive == Drive.DriveCurve(amount, pi)
    ensures r.drive.Some? ==> var c := r.drive.value;
      && (forall i, j :: 0 <= i < j < |c| ==> c[i] < c[j])
      && (forall i, j :: 0 <= i < |c| && 0 <= j < |c| && i + j == 2 * Drive.Centre ==> c[i] == -c[j])
      && (forall i :: 0 <= i < |c| ==> Abs(c[i]) <= Drive.PeakMagnitude(10.0 * amount, pi))
  {
    d.(drive := Drive.DriveCurve(amount, pi))
  }

  /** Sub-bass boost in dB for a knob amount: 1.5 dB per unit. */
  function SubBassGain(amount: real): (g: real)
    ensures 0.0 <= amount <= 10.0 ==> 0.0 <= g <= 15.0
    ensures amount == 0.0 ==> g == 0.0
  {
    amount * 1.5
  }

  /** `setSubBass(amount)`: only the 80 Hz shelf's gain moves, toward 1.5 dB per unit. */
  function SetSubBass(d: Deck, amount: real): (r: Deck)
    ensures r.(subBass := d.subBass) == d
    ensures r.subBass.(gain := d.subBass.gain) == d.subBass
    ensures r.subBass.gain == Ramp(SubBassGain(amount), SubBassTimeConstant)
  {
    d.(subBass := d.subBass.(gain := Ramp(amount * 1.5, SubBassTimeConstant)))
  }

  // ---- properties relating several operations ----

  /**
   Playing at `t0` and pausing at `t1` advances `pauseTime` by exactly
   `t1 - t0`; after a rejected start the pause finds nothing playing and
   `pauseTime` stays where it was.
   */
  lemma PlayThenPause(t: Transport, t0: real, t1: real)
    requires Valid(t) && !t.isPlaying && t.buffer.Some?
    ensures t.pauseTime >= 0.0 ==> Pause(Play(t, t0), t1).pauseTime == t.pauseTime + (t1 - t0)
    ensures t.pauseTime < 0.0 ==> Pause(Play(t, t0), t1) == Play(t, t0)
    ensures !Pause(Play(t, t0), t1).isPlaying
  {
  }

  /** The elapsed position after a play/pause cycle does not depend on the playback rate. */
  lemma ElapsedIgnoresRate(t: Transport, rate1: real, rate2: real, t0: real, t1: real)
    requires Valid(t)
    ensures Pause(Play(SetRate(t, rate1), t0), t1).pauseTime == Pause(Play(SetRate(t, rate2), t0), t1).pauseTime
  {
  }

  /**
   Pausing and resuming at the same instant restores the start time, so the
   position does not jump; the resume is accepted whenever the clock has
   not run back before the start.
   */
  lemma PauseThenPlay(t: Transport, now: real)
    requires Valid(t) && t.isPlaying
    ensures Play(Pause(t, now), now).startTime == t.startTime
    ensures Position(Play(Pause(t, now), now), now) == Position(t, now)
    ensures Play(Pause(t, now), now).isPlaying <==> now >= t.startTime
  {
  }

  /**
   A second `play` changes nothing after an accepted one; after a rejected
   one it makes the same attempt again, as if it were the first.
   */
  lemma PlayIdempotent(t: Transport, now: real, later: real)
    ensures !StartRejected(t) ==> Play(Play(t, now), later) == Play(t, now)
    ensures StartRejected(t) ==> Play(Play(t, now), later) == Play(t, later)
  {
  }

  lemma PauseIdempotent(t: Transport, now: real, later: real)
    ensures Pause(Pause(t, now), later) == Pause(t, now)
  {
  }

  /**
   Seeking while playing restarts the source from the new offset at the
   stored rate; to a negative time the restart raises and the deck stops.
   */
  lemma SeekWhilePlaying(t: Transport, time: real, now: real)
    requires Valid(t) && t.isPlaying
    ensures Seek(t, time, now).source == Some(Source(t.buffer.value, time, Fixed(t.playbackRate)))
    ensures Seek(t, time, now).isPlaying <==> time >= 0.0
    ensures SeekRaises(t, time, now) <==> time < 0.0
  {
  }

  /**
   A deck whose start was rejected holds a silent source that `pause` does
   not touch; `setRate` still ramps it, and the next accepted `play`
   replaces it.
   */
  lemma RejectedStartLingers(t: Transport, now: real, later: real, rate: real)
    requires Valid(t) && StartRejected(t)
    ensures var s := Play(t, now);
      && !s.isPlaying && s.source.Some?
      && Pause(s, later) == s
      && SetRate(s, rate).source.value.rate == Ramp(rate, RateTimeConstant)
      && Play(Seek(s, 0.0, later), later).isPlaying
      && Play(Seek(s, 0.0, later), later).source.value.offset == 0.0
  {
  }

  /** A load during playback swaps the buffer for the next `play` but leaves the running source on the old one. */
  lemma LoadWhilePlaying(t: Transport, b: Buffer)
    requires Valid(t) && t.isPlaying
    ensures Load(t, Some(b)).transport.source == t.source
    ensures Load(t, Some(b)).transport.isPlaying
    ensures Play(Load(t, Some(b)).transport, 0.0) == Load(t, Some(b)).transport
  {
  }

  /** A transport command as the deck's callers issue it. */
  datatype Command =
    | PlayAt(now: real)
    | PauseAt(now: real)
    | SeekTo(time: real, now: real)
    | RateTo(rate: real)
    | LoadWith(decoded: Option<Buffer>)

  function Step(t: Transport, c: Command): Transport
  {
    match c
    case PlayAt(now) => Play(t, now)
    case PauseAt(now) => Pause(t, now)
    case SeekTo(time, now) => Seek(t, time, now)
    case RateTo(rate) => SetRate(t, rate)
    case LoadWith(decoded) => Load(t, decoded).transport
  }

  function Run(t: Transport, cs: seq<Command>): Transport
    decreases |cs|
  {
    if |cs| == 0 then t else Run(Step(t, cs[0]), cs[1..])
  }

  /** Every transport reachable from a new deck is `Valid`. */
  lemma {:induction false} RunPreservesValid(t: Transport, cs: seq<Command>)
    requires Valid(t)
    ensures Valid(Run(t, cs))
    decreases |cs|
  {
    if |cs| > 0 {
      RunPreservesValid(Step(t, cs[0]), cs[1..]);
    }
  }

  /** Once a buffer is loaded, no command sequence unloads it. */
  lemma {:induction false} RunKeepsBuffer(t: Transport, cs: seq<Command>)
    requires t.buffer.Some?
    ensures Run(t, cs).buffer.Some?
    decreases |cs|
  {
    if |cs| > 0 {
      RunKeepsBuffer(Step(t, cs[0]), cs[1..]);
    }
  }

  /** The filter cutoff rises strictly with a positive amount. */
  lemma HighpassIncreasing(a: real, b: real)
    requires 0.0 < a < b
    ensures HighpassCutoff(a) < HighpassCutoff(b)
  {
  }

  /** The low-pass cutoff falls strictly as the magnitude of a negative amount grows. */
  lemma LowpassDecreasing(a: real, b: real)
    requires a < b < 0.0
    ensures LowpassCutoff(a) < LowpassCutoff(b)
  {
  }

  /** The ends of the sweep: +100 gives 8020 Hz high-pass, -100 gives 500 Hz low-pass. */
  lemma FilterEndpoints(d: Deck)
    ensures SetFilter(d, 100.0).filter.frequency.Target() == 8020.0
    ensures SetFilter(d, -100.0).filter.frequency.Target() == 500.0
  {
  }
}

=== FILE: deck_view.dfy ===
/**
 The deck panel (`Deck`): the UI state record, the handlers that drive one
 `DeckEngine`, the display strings, and the effect that pushes the UI's
 parameter values into the engine.
 */
module DeckView {
  import opened Common
  import opened Text
  import DeckEngine
  import Drive
  import Knob

  /** The per-deck UI state, including the two FX values that may be missing. */
  datatype DeckState = DeckState(
    trackName: Option<string>,
    isPlaying: bool,
    volume: real,
    rate: real,
    eqHigh: real,
    eqMid: real,
    eqLow: real,
    filter: real,
    duration: real,
    currentTime: real,
    drive: Option<real>,
    subBass: Option<real>)

  /** The neutral defaults a deck starts with. */
  const DefaultDeckState := DeckState(None, false, 1.0, 1.0, 0.0, 0.0, 0.0, 0.0, 0.0, 0.0, Some(0.0), Some(0.0))

  /** What one deck panel holds: its UI state, the loading flag, and its engine deck. */
  datatype Panel = Panel(ui: DeckState, loading: bool, engine: DeckEngine.Deck)

  /** The UI and the engine agree on whether the deck is playing. */
  predicate Agrees(p: Panel)
  {
    p.ui.isPlaying == p.engine.transport.isPlaying
  }

  // ---- "m:ss" duration display ----

  /** `Math.trunc`. */
  function Trunc(x: real): int
  {
    if x >= 0.0 then x.Floor else -((-x).Floor)
  }

  /** JavaScript's `%` on numbers: the remainder takes the sign of the dividend. */
  function JsRem(a: real, b: real): real
    requires b != 0.0
  {
    a - b * (Trunc(a / b) as real)
  }

  function WholeMinutes(seconds: real): int { (seconds / 60.0).Floor }

  function WholeSeconds(seconds: real): int { JsRem(seconds, 60.0).Floor }

  /** For a non-negative time the two fields are the quotient and remainder of the whole seconds by 60. */
  lemma ClockFields(seconds: real)
    requires seconds >= 0.0
    ensures WholeMinutes(seconds) == seconds.Floor / 60
    ensures WholeSeconds(seconds) == seconds.Floor % 60
  {
    var m, f := WholeMinutes(seconds), seconds.Floor;
    assert 60.0 * (m as real) <= seconds < 60.0 * (m as real) + 60.0;
    assert f / 60 == m;
    assert Trunc(seconds / 60.0) == m;
    assert JsRem(seconds, 60.0) == seconds - 60.0 * (m as real);
    assert (seconds - 60.0 * (m as real)).Floor == f - 60 * m;
  }

  /** The display built from the two fields: `${m}:${s < 10 ? '0' : ''}${s}`. */
  function ClockString(m: int, s: int): string
  {
    IntToString(m) + ":" + (if s < 10 then "0" else "") + IntToString(s)
  }

  /**
   From whole minutes and seconds of the minute the display is the minutes
   in decimal without padding, a colon, and the seconds in exactly two
   digits, and it reads back as the two numbers.
   */
  lemma ClockDisplay(m: nat, s: nat)
    requires s < 60
    ensures var r := ClockString(m, s);
      && |r| >= 4 && r[|r| - 3] == ':'
      && (m < 10 ==> |r| == 4)
      && Renders(r[..|r| - 3], m, 1)
      && Renders(r[|r| - 2..], s, 2)
      && ParseClock(r) == Some(Clock(m, s))
  {
    var r := ClockString(m, s);
    assert r == NatToString(m) + ":" + Pad2(s);
    assert r[..|r| - 3] == NatToString(m) && r[|r| - 2..] == Pad2(s);
    ParseNatToString(m);
    ParseClockOfParts(NatToString(m), Pad2(s));
  }

  /**
   `formatTime(seconds)`: whole minutes unpadded, a colon, whole seconds of
   the minute padded to two digits ("3:07").
   */
  function FormatTime(seconds: real): (r: string)
    ensures 0.0 <= seconds ==> |r| >= 4
    ensures 0.0 <= seconds < 600.0 ==> |r| == 4
  {
    var r := ClockString(WholeMinutes(seconds), WholeSeconds(seconds));
    if 0.0 <= seconds then
      ClockFields(seconds);
      ClockDisplay(seconds.Floor / 60, seconds.Floor % 60);
      r
    else r
  }

  /**
   A non-negative time's display is its whole minutes written without
   padding, a colon, and its whole seconds of the minute in two digits; it
   reads back as those two numbers.
   */
  lemma FormatTimeRoundTrip(seconds: real)
    requires seconds >= 0.0
    ensures var r := FormatTime(seconds);
      && |r| >= 4 && r[|r| - 3] == ':'
      && Renders(r[..|r| - 3], seconds.Floor / 60, 1)
      && Renders(r[|r| - 2..], seconds.Floor % 60, 2)
    ensures ParseClock(FormatTime(seconds)) == Some(Clock(seconds.Floor / 60, seconds.Floor % 60))
  {
    ClockFields(seconds);
    ClockDisplay(seconds.Floor / 60, seconds.Floor % 60);
  }

  /** Whole seconds the duration display shows: none for a duration that is not positive. */
  function ShownSeconds(duration: real): nat
  {
    if duration > 0.0 then duration.Floor else 0
  }

  /** The duration display: `formatTime(duration)` when positive, else "0:00". */
  function DurationLabel(duration: real): (r: string)
    ensures duration <= 0.0 ==> r == "0:00"
    ensures duration > 0.0 ==> r == FormatTime(duration)
    ensures |r| >= 4 && r[|r| - 3] == ':'
    ensures Renders(r[..|r| - 3], ShownSeconds(duration) / 60, 1)
    ensures Renders(r[|r| - 2..], ShownSeconds(duration) % 60, 2)
    ensures ParseClock(r) == Some(Clock(ShownSeconds(duration) / 60, ShownSeconds(duration) % 60))
  {
    if duration > 0.0 then
      FormatTimeRoundTrip(duration);
      FormatTime(duration)
    else
      ParseClockOfParts("0", "00");
      assert "0" + ":" + "00" == "0:00";
      assert ParseNat("0") == 0 && ParseNat("00") == 0 by {
        assert "00"[..1] == "0" && "0"[..0] == "";
      }
      assert "0:00"[..1] == "0" && "0:00"[2..] == "00";
      "0:00"
  }

  // ---- track name from a file name ----

  /**
   `name[i..]` is a trailing extension: a dot followed by at least one
   character, none of them a dot or a slash (the pattern `\.[^/.]+$`).
   */
  predicate ExtensionAt(name: string, i: int)
  {
    && 0 <= i < |name| - 1
    && name[i] == '.'
    && forall j :: i < j < |name| ==> name[j] != '.' && name[j] != '/'
  }

  /** A name has at most one trailing extension. */
  lemma ExtensionUnique(name: string, i: int, j: int)
    requires ExtensionAt(name, i) && ExtensionAt(name, j)
    ensures i == j
  {
  }

  /** Scans left from `k`, where everything at or after `k` is neither a dot nor a slash. */
  function ScanForExtension(name: string, k: nat): (r: Option<nat>)
    requires k <= |name|
    requires forall j :: k <= j < |name| ==> name[j] != '.' && name[j] != '/'
    ensures r.Some? ==> ExtensionAt(name, r.value)
    ensures r.None? ==> forall i :: !ExtensionAt(name, i)
    decreases k
  {
    if k == 0 then None
    else if name[k - 1] == '.' then (if k < |name| then Some(k - 1) else None)
    else if name[k - 1] == '/' then None
    else ScanForExtension(name, k - 1)
  }

  /** Where the trailing extension starts, if the name has one. */
  function ExtensionStart(name: string): (r: Option<nat>)
    ensures r.Some? <==> exists i :: ExtensionAt(name, i)
    ensures r.Some? ==> ExtensionAt(name, r.value)
  {
    ScanForExtension(name, |name|)
  }

  /**
   The track name shown for a loaded file: the file name with its trailing
   extension removed, or unchanged when it has none.
   */
  function TrackName(fileName: string): (r: string)
    ensures r <= fileName
    ensures forall i :: ExtensionAt(fileName, i) ==> r == fileName[..i]
    ensures r == fileName <==> forall i :: !ExtensionAt(fileName, i)
  {
    match ExtensionStart(fileName)
    case None => fileName
    case Some(i) => fileName[..i]
  }

  // ---- labels ----

  /** A track name counts as present when it is non-null and non-empty (JavaScript truthiness). */
  predicate HasTrack(ui: DeckState)
  {
    ui.trackName.Some? && |ui.trackName.value| > 0
  }

  /** The status line: loading beats everything, then whether a track is present. */
  function StatusLabel(p: Panel): (r: string)
    ensures r in {"LOADING DATA...", "TRACK LOADED", "NO DISC"}
    ensures r == "LOADING DATA..." <==> p.loading
    ensures r == "NO DISC" <==> !p.loading && !HasTrack(p.ui)
  {
    if p.loading then "LOADING DATA..."
    else if HasTrack(p.ui) then "TRACK LOADED"
    else "NO DISC"
  }

  /** The track-name line: the name, or "---" when there is none to show. */
  function TrackLabel(ui: DeckState): (r: string)
    ensures HasTrack(ui) ==> r == ui.trackName.value
    ensures !HasTrack(ui) ==> r == "---"
  {
    if HasTrack(ui) then ui.trackName.value else "---"
  }

  // ---- handlers ----

  /** Whether the play/pause button raises: it asks the engine to play, and the start is rejected. */
  predicate ToggleRaises(p: Panel)
  {
    !p.ui.isPlaying && DeckEngine.StartRejected(p.engine.transport)
  }

  /**
   The play/pause button: pauses the engine if the UI says playing, else
   asks it to play, then flips the UI flag. When the engine's start is
   rejected the handler stops at the raise and the flag is not flipped.
   Without a buffer the engine does not move, so the two then disagree.
   */
  function TogglePlay(p: Panel, now: real): (r: Panel)
    ensures !ToggleRaises(p) ==> r.ui == p.ui.(isPlaying := !p.ui.isPlaying)
    ensures ToggleRaises(p) ==> r.ui == p.ui
    ensures r.loading == p.loading
    ensures r.engine.(transport := p.engine.transport) == p.engine
    ensures p.ui.isPlaying ==> r.engine.transport == DeckEngine.Pause(p.engine.transport, now)
    ensures !p.ui.isPlaying ==> r.engine.transport == DeckEngine.Play(p.engine.transport, now)
    ensures DeckEngine.Valid(p.engine.transport) ==> DeckEngine.Valid(r.engine.transport)
    ensures DeckEngine.Valid(p.engine.transport) && p.engine.transport.buffer.None? ==> r.engine == p.engine
    ensures DeckEngine.Valid(p.engine.transport) && p.engine.transport.buffer.Some? && Agrees(p) ==> Agrees(r)
  {
    var t := p.engine.transport;
    var t' := if p.ui.isPlaying then DeckEngine.Pause(t, now) else DeckEngine.Play(t, now);
    var ui := if ToggleRaises(p) then p.ui else p.ui.(isPlaying := !p.ui.isPlaying);
    Panel(ui, p.loading, p.engine.(transport := t'))
  }

  /** With no disc, pressing play lights the UI while the engine stays stopped. */
  lemma TogglePlayWithoutDisc(p: Panel, now: real)
    requires DeckEngine.Valid(p.engine.transport) && p.engine.transport.buffer.None? && !p.ui.isPlaying
    ensures TogglePlay(p, now).ui.isPlaying
    ensures !TogglePlay(p, now).engine.transport.isPlaying
  {
  }

  /**
   The cue button: pause, seek to the start, and mark the UI stopped. The
   engine ends paused, at offset 0 when a buffer is loaded.
   */
  function Cue(p: Panel, now: real): (r: Panel)
    ensures r.ui == p.ui.(isPlaying := false) && r.loading == p.loading
    ensures r.engine.(transport := p.engine.transport) == p.engine
    ensures DeckEngine.Valid(p.engine.transport) ==>
      && DeckEngine.Valid(r.engine.transport)
      && !r.engine.transport.isPlaying
      && Agrees(r)
    ensures DeckEngine.Valid(p.engine.transport) && p.engine.transport.buffer.Some? ==>
      r.engine.transport.pauseTime == 0.0
  {
    var t := DeckEngine.Seek(DeckEngine.Pause(p.engine.transport, now), 0.0, now);
    Panel(p.ui.(isPlaying := false), p.loading, p.engine.(transport := t))
  }

  /** The state shown while a load is in flight. */
  function StartLoading(p: Panel): (r: Panel)
    ensures StatusLabel(r) == "LOADING DATA..."
    ensures r.ui == p.ui && r.engine == p.engine
  {
    p.(loading := true)
  }

  /**
   `handleUrlLoad(url, name)`, with fetching and decoding abstracted as the
   `decoded` outcome: success records the name and the duration; failure
   leaves both as they were; either way loading ends.
   */
  function UrlLoad(p: Panel, name: string, decoded: Option<DeckEngine.Buffer>): (r: Panel)
    ensures !r.loading
    ensures decoded.None? ==> r.ui == p.ui && r.engine == p.engine
    ensures decoded.Some? ==>
      && r.ui == p.ui.(trackName := Some(name), duration := decoded.value.duration)
      && r.engine.transport.buffer == decoded
      && r.engine.transport.isPlaying == p.engine.transport.isPlaying
      && r.engine.transport == p.engine.transport.(buffer := decoded)
    ensures r.engine.(transport := p.engine.transport) == p.engine
  {
    var q := StartLoading(p);
    var loaded := DeckEngine.Load(q.engine.transport, decoded);
    var ui := match loaded.duration
      case None => q.ui
      case Some(d) => q.ui.(trackName := Some(name), duration := d);
    Panel(ui, false, q.engine.(transport := loaded.transport))
  }

  /**
   `handleFileChange` as written: with a file chosen it loads it and, on
   success, shows its name without extension and its duration. There is no
   failure handling, so when decoding fails the loading flag is never reset.
   */
  function FileLoad(p: Panel, file: Option<string>, decoded: Option<DeckEngine.Buffer>): (r: Panel)
    ensures file.None? ==> r == p
    ensures file.Some? && decoded.Some? ==>
      && !r.loading
      && r.ui == p.ui.(trackName := Some(TrackName(file.value)), duration := decoded.value.duration)
      && r.engine.transport.buffer == decoded
      && r.engine.transport == p.engine.transport.(buffer := decoded)
    ensures r.engine.(transport := p.engine.transport) == p.engine
    ensures file.Some? && decoded.None? ==> r.ui == p.ui && r.engine == p.engine && r.loading
  {
    match file
    case None => p
    case Some(name) =>
      var q := StartLoading(p);
      var loaded := DeckEngine.Load(q.engine.transport, decoded);
      match loaded.duration
      case None => q
      case Some(d) => Panel(q.ui.(trackName := Some(TrackName(name)), duration := d), false, q.engine.(transport := loaded.transport))
  }

  /** After a failed file decode the status line stays on "LOADING DATA..." for good. */
  lemma FileLoadFailureStaysLoading(p: Panel, name: string)
    ensures StatusLabel(FileLoad(p, Some(name), None)) == "LOADING DATA..."
  {
  }

  /** The file handler with loading ended on both outcomes, as the URL handler does. */
  function FileLoadSettled(p: Panel, file: Option<string>, decoded: Option<DeckEngine.Buffer>): (r: Panel)
    ensures file.None? ==> r == p
    ensures file.Some? ==> !r.loading && StatusLabel(r) != "LOADING DATA..."
    ensures file.Some? && decoded.None? ==> r.ui == p.ui && r.engine == p.engine
    ensures file.Some? && decoded.Some? ==> r == FileLoad(p, file, decoded)
  {
    match file
    case None => p
    case Some(name) => FileLoad(p, file, decoded).(loading := false)
  }

  // ---- the FX sync effect ----

  /** `value || 0` for an FX value that may be missing. */
  function OrZero(v: Option<real>): real
  {
    match v
    case None => 0.0
    case Some(x) => x
  }

  /**
   The effect that runs on every UI change: volume, rate, the three EQ
   bands, filter, drive and sub-bass are pushed to the engine in that order;
   a missing drive or sub-bass value is pushed as 0, which bypasses the
   shaper and targets a 0 dB boost. Transport position is not touched.
   */
  function SyncFx(p: Panel, pi: real): (r: Panel)
    requires pi > 0.0
    ensures r.ui == p.ui && r.loading == p.loading
    ensures r.engine.gain.Target() == p.ui.volume
    ensures r.engine.transport.playbackRate == p.ui.rate
    ensures r.engine.transport == DeckEngine.SetRate(p.engine.transport, p.ui.rate)
    ensures r.engine.eqHigh.gain.Target() == p.ui.eqHigh
    ensures r.engine.eqMid.gain.Target() == p.ui.eqMid
    ensures r.engine.eqLow.gain.Target() == p.ui.eqLow
    ensures p.ui.filter == 0.0 ==> r.engine.filter.kind == DeckEngine.Allpass
    ensures p.ui.filter > 0.0 ==>
      && r.engine.filter.kind == DeckEngine.Highpass && r.engine.filter.q == DeckEngine.Fixed(1.0)
      && r.engine.filter.frequency == DeckEngine.Ramp(DeckEngine.HighpassCutoff(p.ui.filter), DeckEngine.FilterTimeConstant)
    ensures p.ui.filter < 0.0 ==>
      && r.engine.filter.kind == DeckEngine.Lowpass && r.engine.filter.q == DeckEngine.Fixed(1.0)
      && r.engine.filter.frequency == DeckEngine.Ramp(DeckEngine.LowpassCutoff(p.ui.filter), DeckEngine.FilterTimeConstant)
    ensures r.engine.drive.None? <==> OrZero(p.ui.drive) <= Drive.BypassThreshold
    ensures r.engine.drive == Drive.DriveCurve(OrZero(p.ui.drive), pi)
    ensures r.engine.drive.Some? ==> var c := r.engine.drive.value;
      && |c| == Drive.CurveLength && c[Drive.Centre] == 0.0
      && (forall i, j :: 0 <= i < j < |c| ==> c[i] < c[j])
      && (forall i :: 0 <= i < |c| ==> Abs(c[i]) <= Drive.PeakMagnitude(10.0 * OrZero(p.ui.drive), pi))
    ensures p.ui.subBass.None? ==> r.engine.subBass.gain.Target() == 0.0
    ensures r.engine.subBass.gain.Target() == DeckEngine.SubBassGain(OrZero(p.ui.subBass))
    ensures var t, t' := p.engine.transport, r.engine.transport;
      t'.isPlaying == t.isPlaying && t'.buffer == t.buffer
      && t'.startTime == t.startTime && t'.pauseTime == t.pauseTime
    ensures DeckEngine.Valid(p.engine.transport) ==> DeckEngine.Valid(r.engine.transport)
  {
    var ui := p.ui;
    var d := DeckEngine.SetVolume(p.engine, ui.volume);
    var d := d.(transport := DeckEngine.SetRate(d.transport, ui.rate));
    var d := DeckEngine.SetEQ(d, DeckEngine.High, ui.eqHigh);
    var d := DeckEngine.SetEQ(d, DeckEngine.Mid, ui.eqMid);
    var d := DeckEngine.SetEQ(d, DeckEngine.Low, ui.eqLow);
    var d := DeckEngine.SetFilter(d, ui.filter);
    var d := DeckEngine.SetDrive(d, OrZero(ui.drive), pi);
    var d := DeckEngine.SetSubBass(d, OrZero(ui.subBass));
    p.(engine := d)
  }

  // ---- knobs feeding the engine ----

  /** The knobs on a deck panel, with the ranges the panel gives them. */
  datatype Control = HighKnob | MidKnob | LowKnob | FilterKnob | SubBassKnob | DriveKnob

  function KnobMin(c: Control): real
  {
    match c
    case FilterKnob => -100.0
    case SubBassKnob | DriveKnob => 0.0
    case _ => -12.0
  }

  function KnobMax(c: Control): real
  {
    match c
    case FilterKnob => 100.0
    case SubBassKnob | DriveKnob => 10.0
    case _ => 12.0
  }

  /** The value a knob shows: the field it edits, a missing FX value as 0. */
  function KnobValue(ui: DeckState, c: Control): real
  {
    match c
    case HighKnob => ui.eqHigh
    case MidKnob => ui.eqMid
    case LowKnob => ui.eqLow
    case FilterKnob => ui.filter
    case SubBassKnob => OrZero(ui.subBass)
    case DriveKnob => OrZero(ui.drive)
  }

  /** A knob's `onChange`: the edited field takes the emitted value, every other field is kept. */
  function ApplyKnob(ui: DeckState, c: Control, v: real): (r: DeckState)
    ensures KnobValue(r, c) == v
    ensures forall other :: other != c ==> KnobValue(r, other) == KnobValue(ui, other)
    ensures r.trackName == ui.trackName && r.isPlaying == ui.isPlaying && r.volume == ui.volume
      && r.rate == ui.rate && r.duration == ui.duration && r.currentTime == ui.currentTime
    ensures r.(eqHigh := ui.eqHigh, eqMid := ui.eqMid, eqLow := ui.eqLow, filter := ui.filter,
      drive := ui.drive, subBass := ui.subBass) == ui
  {
    match c
    case HighKnob => ui.(eqHigh := v)
    case MidKnob => ui.(eqMid := v)
    case LowKnob => ui.(eqLow := v)
    case FilterKnob => ui.(filter := v)
    case SubBassKnob => ui.(subBass := Some(v))
    case DriveKnob => ui.(drive := Some(v))
  }

  /** Every knob-edited field lies in its knob's range. */
  predicate InKnobRanges(ui: DeckState)
  {
    forall c :: KnobMin(c) <= KnobValue(ui, c) <= KnobMax(c)
  }

  /** The defaults a panel mounts with put every knob within its range. */
  lemma DefaultsInKnobRanges()
    ensures InKnobRanges(DefaultDeckState)
    ensures !DefaultDeckState.isPlaying && DefaultDeckState.trackName.None?
  {
  }

  /** Dragging any knob keeps every knob-edited field in range, whatever the pointer does. */
  lemma KnobDragKeepsRanges(ui: DeckState, c: Control, d: Knob.Drag, clientY: real)
    requires InKnobRanges(ui) && d.isDragging
    ensures var v := Knob.MouseMove(d, clientY, KnobMin(c), KnobMax(c)).value;
      InKnobRanges(ApplyKnob(ui, c, v))
  {
    var v := Knob.MouseMove(d, clientY, KnobMin(c), KnobMax(c)).value;
    var r := ApplyKnob(ui, c, v);
    forall c' ensures KnobMin(c') <= KnobValue(r, c') <= KnobMax(c') {
      if c' != c {
        assert KnobValue(r, c') == KnobValue(ui, c');
      }
    }
  }

  /**
   With the knob-edited fields in range, the values the effect pushes to
   the engine are bounded: the cutoff stays within 20-8020 Hz for a
   high-pass and 500-20000 Hz for a low-pass, the boost within 0-15 dB and
   each EQ gain within ±12 dB.
   */
  lemma SyncFxBounded(p: Panel, pi: real)
    requires pi > 0.0 && InKnobRanges(p.ui)
    ensures var e := SyncFx(p, pi).engine;
      && (e.filter.kind == DeckEngine.Highpass ==> 20.0 < e.filter.frequency.Target() <= 8020.0)
      && (e.filter.kind == DeckEngine.Lowpass ==> 500.0 <= e.filter.frequency.Target() < 20000.0)
      && 0.0 <= e.subBass.gain.Target() <= 15.0
      && -12.0 <= e.eqHigh.gain.Target() <= 12.0
      && -12.0 <= e.eqMid.gain.Target() <= 12.0
      && -12.0 <= e.eqLow.gain.Target() <= 12.0
  {
    assert KnobMin(FilterKnob) <= KnobValue(p.ui, FilterKnob) <= KnobMax(FilterKnob);
    assert KnobMin(SubBassKnob) <= KnobValue(p.ui, SubBassKnob) <= KnobMax(SubBassKnob);
    assert KnobMin(HighKnob) <= KnobValue(p.ui, HighKnob) <= KnobMax(HighKnob);
    assert KnobMin(MidKnob) <= KnobValue(p.ui, MidKnob) <= KnobMax(MidKnob);
    assert KnobMin(LowKnob) <= KnobValue(p.ui, LowKnob) <= KnobMax(LowKnob);
  }
}

=== FILE: drive.dfy ===
/**
 The drive (distortion) stage of a deck: the waveshaper lookup table that
 `DeckEngine.setDrive` synthesises. π is kept abstract (any positive real),
 so every fact below holds whatever value the platform uses for it.
 */
module Drive {
  import opened Common

  /** Entries in the synthesised waveshaper table. */
  const CurveLength: nat := 44100

  /** The index whose input is exactly 0. */
  const Centre: nat := 22050

  /** Drive amounts at or below this value bypass the shaper. */
  const BypassThreshold: real := 0.1

  /** Table index mapped linearly onto the input range [-1, 1). */
  function IndexToInput(i: nat): (x: real)
    ensures i < CurveLength ==> -1.0 <= x < 1.0
    ensures i == Centre ==> x == 0.0
  {
    (i as real) * 2.0 / (CurveLength as real) - 1.0
  }

  /** Twenty degrees in radians, for an abstract π. */
  function TwentyDegrees(pi: real): real { 20.0 * (pi / 180.0) }

  /** The sigmoid transfer function at input `x`, for intensity `k`. */
  function Shape(k: real, pi: real, x: real): real
    requires k >= 0.0 && pi > 0.0
  {
    (3.0 + k) * x * 20.0 * (pi / 180.0) / (pi + k * Abs(x))
  }

  /** The largest magnitude the table reaches: the value at input 1. */
  function PeakMagnitude(k: real, pi: real): real
    requires k >= 0.0 && pi > 0.0
  {
    (3.0 + k) * (pi / 9.0) / (pi + k)
  }

  /** The whole table for intensity `k`, one entry per index. */
  function CurveTable(k: real, pi: real): (c: seq<real>)
    requires k >= 0.0 && pi > 0.0
  {
    seq(CurveLength, i requires 0 <= i < CurveLength => Shape(k, pi, IndexToInput(i)))
  }

  /**
   `setDrive(amount)`: `None` (the shaper's curve set to null, i.e. bypass)
   at or below the threshold, otherwise the table for `k = 10 * amount`,
   which is strictly increasing, zero at the centre index, odd about it and
   bounded by the peak magnitude.
   */
  function DriveCurve(amount: real, pi: real): (r: Option<seq<real>>)
    requires pi > 0.0
    ensures r.None? <==> amount <= BypassThreshold
    ensures r.Some? ==> |r.value| == CurveLength
    ensures r.Some? ==> r.value[Centre] == 0.0
    ensures r.Some? ==> forall i, j :: 0 <= i < j < |r.value| ==> r.value[i] < r.value[j]
    ensures r.Some? ==> forall i, j :: 0 <= i < |r.value| && 0 <= j < |r.value| && i + j == 2 * Centre ==> r.value[i] == -r.value[j]
    ensures r.Some? ==> forall i :: 0 <= i < |r.value| ==> Abs(r.value[i]) <= PeakMagnitude(10.0 * amount, pi)
  {
    if amount <= BypassThreshold then None
    else
      var k := amount * 10.0;
      CurveTableProperties(k, pi);
      Some(CurveTable(k, pi))
  }

  lemma CurveTableProperties(k: real, pi: real)
    requires k >= 0.0 && pi > 0.0
    ensures CurveTable(k, pi)[Centre] == 0.0
    ensures forall i, j :: 0 <= i < j < CurveLength ==> CurveTable(k, pi)[i] < CurveTable(k, pi)[j]
    ensures forall i, j :: 0 <= i < CurveLength && 0 <= j < CurveLength && i + j == 2 * Centre ==> CurveTable(k, pi)[i] == -CurveTable(k, pi)[j]
    ensures forall i :: 0 <= i < CurveLength ==> Abs(CurveTable(k, pi)[i]) <= PeakMagnitude(k, pi)
  {
    var c := CurveTable(k, pi);
    forall i, j | 0 <= i < j < CurveLength ensures c[i] < c[j] {
      ShapeIncreasing(k, pi, IndexToInput(i), IndexToInput(j));
    }
    forall i, j | 0 <= i < CurveLength && 0 <= j < CurveLength && i + j == 2 * Centre
      ensures c[i] == -c[j]
    {
      assert IndexToInput(i) == -IndexToInput(j);
      ShapeOdd(k, pi, IndexToInput(j));
    }
    forall i | 0 <= i < CurveLength ensures Abs(c[i]) <= PeakMagnitude(k, pi) {
      ShapeBounded(k, pi, IndexToInput(i));
    }
  }

  /** `setDrive`'s loop: fills the table one entry at a time, in index order. */
  method FillCurve(amount: real, pi: real) returns (curve: seq<real>)
    requires pi > 0.0 && amount > BypassThreshold
    ensures DriveCurve(amount, pi) == Some(curve)
  {
    var k := amount * 10.0;
    curve := [];
    var i := 0;
    while i < CurveLength
      invariant 0 <= i <= CurveLength
      invariant |curve| == i
      invariant forall j :: 0 <= j < i ==> curve[j] == Shape(k, pi, IndexToInput(j))
    {
      var x := (i as real) * 2.0 / (CurveLength as real) - 1.0;
      assert x == IndexToInput(i);
      curve := curve + [(3.0 + k) * x * 20.0 * (pi / 180.0) / (pi + k * Abs(x))];
      i := i + 1;
    }
    assert curve == CurveTable(k, pi);
    assert DriveCurve(amount, pi) == Some(CurveTable(k, pi));
  }

  // ---- facts about the transfer function ----

  lemma RatioLess(a: real, da: real, b: real, db: real)
    requires da > 0.0 && db > 0.0 && a * db < b * da
    ensures a / da < b / db
  {
  }

  /** The shape is a positive gain times `x / (π + k|x|)`. */
  lemma ShapeFactors(k: real, pi: real, x: real)
    requires k >= 0.0 && pi > 0.0
    ensures (3.0 + k) * TwentyDegrees(pi) > 0.0
    ensures Shape(k, pi, x) == (3.0 + k) * TwentyDegrees(pi) * (x / (pi + k * Abs(x)))
  {
    var d := pi + k * Abs(x);
    assert d > 0.0;
  }

  lemma {:induction false} ShapeOdd(k: real, pi: real, x: real)
    requires k >= 0.0 && pi > 0.0
    ensures Shape(k, pi, -x) == -Shape(k, pi, x)
  {
    ShapeFactors(k, pi, x);
    ShapeFactors(k, pi, -x);
    assert Abs(-x) == Abs(x);
    var d := pi + k * Abs(x);
    assert (-x) / d == -(x / d);
  }

  lemma ShapeIncreasingNonNegative(k: real, pi: real, x: real, y: real)
    requires k >= 0.0 && pi > 0.0 && 0.0 <= x < y
    ensures Shape(k, pi, x) < Shape(k, pi, y)
  {
    var dx, dy := pi + k * x, pi + k * y;
    assert k * x >= 0.0 && k * y >= 0.0;
    assert (y - x) * pi > 0.0;
    assert (y - x) * pi == y * pi - x * pi;
    assert x * pi < y * pi;
    var kxy := k * x * y;
    assert x * dy == x * pi + kxy;
    assert y * dx == y * pi + kxy;
    assert dx > 0.0 && dy > 0.0;
    RatioLess(x, dx, y, dy);
    ShapeFactors(k, pi, x);
    ShapeFactors(k, pi, y);
    var g := (3.0 + k) * TwentyDegrees(pi);
    assert g * (x / dx) < g * (y / dy);
  }

  /** The transfer function is strictly increasing over all inputs. */
  lemma ShapeIncreasing(k: real, pi: real, x: real, y: real)
    requires k >= 0.0 && pi > 0.0 && x < y
    ensures Shape(k, pi, x) < Shape(k, pi, y)
  {
    if 0.0 <= x {
      ShapeIncreasingNonNegative(k, pi, x, y);
    } else if y <= 0.0 {
      ShapeIncreasingNonNegative(k, pi, -y, -x);
      ShapeOdd(k, pi, x);
      ShapeOdd(k, pi, y);
    } else {
      ShapeIncreasingNonNegative(k, pi, 0.0, -x);
      ShapeIncreasingNonNegative(k, pi, 0.0, y);
      ShapeOdd(k, pi, x);
      assert Shape(k, pi, 0.0) == 0.0;
    }
  }

  /** On [-1, 1] the magnitude never exceeds the value at input 1. */
  lemma ShapeBounded(k: real, pi: real, x: real)
    requires k >= 0.0 && pi > 0.0 && -1.0 <= x <= 1.0
    ensures Abs(Shape(k, pi, x)) <= PeakMagnitude(k, pi)
  {
    assert Shape(k, pi, 1.0) == PeakMagnitude(k, pi);
    if x < 1.0 && x >= 0.0 {
      ShapeIncreasingNonNegative(k, pi, x, 1.0);
    }
    if x <= 0.0 {
      ShapeOdd(k, pi, x);
      if -x < 1.0 {
        ShapeIncreasingNonNegative(k, pi, -x, 1.0);
      }
    }
    if x >= 0.0 {
      if x > 0.0 { ShapeIncreasingNonNegative(k, pi, 0.0, x); }
    } else {
      ShapeIncreasingNonNegative(k, pi, 0.0, -x);
    }
  }
}

=== FILE: knob.dfy ===
/**
 The rotary knob control: the drag state, the clamped linear mapping from
 vertical pointer movement to a value, and the rotation the knob is drawn at.
 */
module Knob {
  import opened Common

  /** Pixels of vertical travel that span the knob's whole range. */
  const DragSpan: real := 200.0

  /** The knob's drag state: whether a drag is active, where it began and the value it began from. */
  datatype Drag = Drag(isDragging: bool, startY: real, startVal: real)

  const Idle := Drag(false, 0.0, 0.0)

  /** The drag handler's clamp `Math.max(min, Math.min(max, v))`. */
  function Clamp(v: real, lo: real, hi: real): (r: real)
    ensures lo <= r
    ensures lo <= hi ==> r <= hi
    ensures lo <= v <= hi ==> r == v
  {
    Max(lo, Min(hi, v))
  }

  /** Pressing the knob starts a drag from the pointer's height and the current value. */
  function MouseDown(d: Drag, clientY: real, value: real): (r: Drag)
    ensures r.isDragging && r.startY == clientY && r.startVal == value
  {
    Drag(true, clientY, value)
  }

  /** Releasing the pointer ends the drag and keeps the recorded start. */
  function MouseUp(d: Drag): (r: Drag)
    ensures !r.isDragging && r.(isDragging := d.isDragging) == d
  {
    d.(isDragging := false)
  }

  /**
   The value a pointer move emits to `onChange`: nothing when no drag is
   active; otherwise the start value moved by the range times the upward
   travel over 200 px, clamped to the knob's bounds.
   */
  function MouseMove(d: Drag, clientY: real, lo: real, hi: real): (r: Option<real>)
    ensures r.Some? <==> d.isDragging
    ensures r.Some? && lo <= hi ==> lo <= r.value <= hi
  {
    if !d.isDragging then None
    else
      var deltaY := d.startY - clientY;
      var range := hi - lo;
      var deltaVal := (deltaY / DragSpan) * range;
      Some(Clamp(d.startVal + deltaVal, lo, hi))
  }

  /** Moving the pointer higher (a smaller `clientY`) never lowers the emitted value. */
  lemma DragMonotone(d: Drag, y1: real, y2: real, lo: real, hi: real)
    requires d.isDragging && lo <= hi && y2 <= y1
    ensures MouseMove(d, y2, lo, hi).value >= MouseMove(d, y1, lo, hi).value
  {
    var range := hi - lo;
    var p, q := (d.startY - y2) / DragSpan, (d.startY - y1) / DragSpan;
    assert p * range >= q * range by {
      assert (p - q) * range >= 0.0;
    }
    ClampMonotone(d.startVal + q * range, d.startVal + p * range, lo, hi);
  }

  lemma MulNonNegative(a: real, b: real)
    requires 0.0 <= a && 0.0 <= b
    ensures 0.0 <= a * b
  {
  }

  lemma MulPositive(a: real, b: real)
    requires 0.0 < a && 0.0 < b
    ensures 0.0 < a * b
  {
  }

  lemma ClampMonotone(a: real, b: real, lo: real, hi: real)
    requires a <= b
    ensures Clamp(a, lo, hi) <= Clamp(b, lo, hi)
  {
  }

  /** A move back to the press point emits the value the drag began with, when it is in range. */
  lemma DragAtRest(d: Drag, lo: real, hi: real)
    requires d.isDragging && lo <= d.startVal <= hi
    ensures MouseMove(d, d.startY, lo, hi) == Some(d.startVal)
  {
  }

  /** Dragging 200 px up from the minimum reaches the maximum. */
  lemma FullRangeSpan(clientY: real, lo: real, hi: real)
    requires lo <= hi
    ensures MouseMove(MouseDown(Idle, clientY, lo), clientY - DragSpan, lo, hi) == Some(hi)
  {
  }

  /**
   Dragging up from the minimum moves the value linearly, by the range per
   200 px: `px` pixels give `px / 200` of the range, so any drag shorter
   than 200 px stays below the maximum of a non-empty range.
   */
  lemma DragFromMinimumLinear(d: Drag, clientY: real, px: real, lo: real, hi: real)
    requires 0.0 <= px <= DragSpan && lo <= hi
    ensures MouseMove(MouseDown(d, clientY, lo), clientY - px, lo, hi) == Some(lo + px / DragSpan * (hi - lo))
    ensures px < DragSpan && lo < hi ==> MouseMove(MouseDown(d, clientY, lo), clientY - px, lo, hi).value < hi
  {
    var f, w := px / DragSpan, hi - lo;
    assert 0.0 <= f <= 1.0;
    MulNonNegative(f, w);
    MulNonNegative(1.0 - f, w);
    assert (1.0 - f) * w == w - f * w;
    assert lo <= lo + f * w <= hi;
    assert Clamp(lo + f * w, lo, hi) == lo + f * w;
    assert px / DragSpan * (hi - lo) == f * w;
    assert MouseMove(MouseDown(d, clientY, lo), clientY - px, lo, hi) == Some(Clamp(lo + f * w, lo, hi));
    if px < DragSpan && lo < hi {
      MulPositive(1.0 - f, w);
    }
  }

  /**
   The rotation the knob is drawn at: -135 degrees at the minimum, +135 at
   the maximum, linear in between.
   */
  function Rotation(value: real, lo: real, hi: real): (deg: real)
    requires lo != hi
    ensures value == lo ==> deg == -135.0
    ensures value == hi ==> deg == 135.0
    ensures lo < hi && lo <= value <= hi ==> -135.0 <= deg <= 135.0
  {
    var percentage := (value - lo) / (hi - lo);
    -135.0 + percentage * 270.0
  }

  /** Larger values turn the knob further clockwise. */
  lemma RotationMonotone(v1: real, v2: real, lo: real, hi: real)
    requires lo < hi && v1 <= v2
    ensures Rotation(v1, lo, hi) <= Rotation(v2, lo, hi)
  {
    assert (v1 - lo) / (hi - lo) <= (v2 - lo) / (hi - lo);
  }

  datatype Size = Small | Medium | Large

  /** Knob diameter in pixels: `sm` 40, `lg` 80, any other size 56. */
  function SizePx(size: Size): (px: nat)
    ensures px in {40, 56, 80}
    ensures size == Small ==> px == 40
    ensures size == Medium ==> px == 56
    ensures size == Large ==> px == 80
  {
    match size
    case Small => 40
    case Large => 80
    case _ => 56
  }
}

=== FILE: recorder.dfy ===
/**
 The recorder panel (`Recorder`): an idle/recording state machine over the
 master-bus capture, with the MediaRecorder's callbacks, the one-second
 timer and the download click modelled as events.
 */
module Recorder {
  import opened Common
  import opened Text

  /** One encoded chunk the platform recorder hands over. */
  datatype Chunk = Chunk(bytes: seq<byte>)

  /** The assembled recording. */
  datatype Blob = Blob(bytes: seq<byte>, mimeType: string)

  /** The platform recorder, remembered only by the format it was asked for. */
  datatype MediaRecorder = MediaRecorder(mimeType: string)

  const RecorderMimeType := "audio/webm;codecs=opus"
  const BlobMimeType := "audio/webm"
  const FilePrefix := "NexusDJ-Set-"
  const FileExtension := ".webm"

  datatype Session = Session(
    isRecording: bool,
    recordingTime: nat,
    audioBlob: Option<Blob>,
    showSaveModal: bool,
    recorder: Option<MediaRecorder>,
    chunks: seq<Chunk>,
    timerRunning: bool,
    leakedTimers: nat)

  const Initial := Session(false, 0, None, false, None, [], false, 0)

  /**
   The intervals that add a second to the counter each second: the one the
   timer handle holds, if any, and every earlier one whose handle a start
   overwrote (no stop can clear those).
   */
  function Firing(s: Session): nat
  {
    (if s.timerRunning then 1 else 0) + s.leakedTimers
  }

  /**
   `startRecording`: a new recorder on the master stream, the chunk list
   emptied, recording on, the counter at 0 and a new interval in the timer
   handle. The saved blob and the modal are left as they were. The handler
   does not clear an interval the handle already holds: that one keeps
   firing, and no later stop can reach it.
   */
  function Start(s: Session): (r: Session)
    ensures r.isRecording && r.recordingTime == 0 && r.chunks == [] && r.timerRunning
    ensures r.recorder == Some(MediaRecorder(RecorderMimeType))
    ensures r.audioBlob == s.audioBlob && r.showSaveModal == s.showSaveModal
    ensures r.leakedTimers == s.leakedTimers + (if s.timerRunning then 1 else 0)
    ensures Firing(r) == Firing(s) + 1
  {
    s.(recorder := Some(MediaRecorder(RecorderMimeType)), chunks := [], isRecording := true,
       recordingTime := 0, timerRunning := true,
       leakedTimers := s.leakedTimers + (if s.timerRunning then 1 else 0))
  }

  /**
   One second of the interval timers: every firing interval adds one to the
   counter, so exactly one while only the handle's interval runs, and
   nothing when none does.
   */
  function Tick(s: Session): (r: Session)
    ensures r.recordingTime == s.recordingTime + Firing(s)
    ensures s.timerRunning && s.leakedTimers == 0 ==> r.recordingTime == s.recordingTime + 1
    ensures Firing(s) == 0 ==> r == s
    ensures r.(recordingTime := s.recordingTime) == s
  {
    s.(recordingTime := s.recordingTime + (if s.timerRunning then 1 else 0) + s.leakedTimers)
  }

  /** `ondataavailable`: a chunk with at least one byte is appended; an empty one is dropped. */
  function DataAvailable(s: Session, c: Chunk): (r: Session)
    ensures |c.bytes| > 0 ==> r.chunks == s.chunks + [c]
    ensures |c.bytes| == 0 ==> r == s
    ensures r.(chunks := s.chunks) == s
  {
    if |c.bytes| > 0 then s.(chunks := s.chunks + [c]) else s
  }

  /**
   `stopRecording`: nothing happens unless a recorder exists and recording
   is on; otherwise recording stops and the timer is cleared. The recorder's
   own stop notification arrives later as `Stopped`.
   */
  function Stop(s: Session): (r: Session)
    ensures s.recorder.None? || !s.isRecording ==> r == s
    ensures s.recorder.Some? && s.isRecording ==> !r.isRecording && !r.timerRunning
    ensures r.(isRecording := s.isRecording, timerRunning := s.timerRunning) == s
  {
    if s.recorder.Some? && s.isRecording then s.(isRecording := false, timerRunning := false)
    else s
  }

  /** The bytes of the chunks, in order, as one sequence. */
  function Concat(cs: seq<Chunk>): seq<byte>
    decreases |cs|
  {
    if |cs| == 0 then [] else cs[0].bytes + Concat(cs[1..])
  }

  /** `onstop`: the chunks are joined into one blob and the save modal opens. */
  function Stopped(s: Session): (r: Session)
    ensures r.audioBlob.Some? && r.audioBlob.value.mimeType == BlobMimeType
    ensures r.audioBlob.value.bytes == Concat(s.chunks)
    ensures |r.audioBlob.value.bytes| == TotalSize(s.chunks)
    ensures r.showSaveModal
    ensures r.(audioBlob := s.audioBlob, showSaveModal := s.showSaveModal) == s
  {
    ConcatSize(s.chunks);
    s.(audioBlob := Some(Blob(Concat(s.chunks), BlobMimeType)), showSaveModal := true)
  }

  function TotalSize(cs: seq<Chunk>): nat
    decreases |cs|
  {
    if |cs| == 0 then 0 else |cs[0].bytes| + TotalSize(cs[1..])
  }

  lemma {:induction false} ConcatSize(cs: seq<Chunk>)
    ensures |Concat(cs)| == TotalSize(cs)
    decreases |cs|
  {
    if |cs| > 0 {
      ConcatSize(cs[1..]);
    }
  }

  /** The dismiss button of the save modal. */
  function CloseModal(s: Session): (r: Session)
    ensures !r.showSaveModal && r.(showSaveModal := s.showSaveModal) == s
  {
    s.(showSaveModal := false)
  }

  /** `String.prototype.slice(0, n)`: the first `n` characters, or all of a shorter string. */
  function SliceTo(s: string, n: nat): (r: string)
    ensures r <= s
    ensures |r| == if |s| < n then |s| else n
  {
    if |s| < n then s else s[..n]
  }

  /** The download file name for a timestamp in ISO 8601 form: its date part framed by the product prefix and extension. */
  function DownloadName(isoTimestamp: string): (name: string)
    ensures |name| == |FilePrefix| + |SliceTo(isoTimestamp, 10)| + |FileExtension|
    ensures |isoTimestamp| >= 10 ==> |name| == |FilePrefix| + 10 + |FileExtension|
    ensures name[..|FilePrefix|] == FilePrefix
    ensures name[|name| - |FileExtension|..] == FileExtension
    ensures name[|FilePrefix|..|name| - |FileExtension|] == SliceTo(isoTimestamp, 10)
  {
    FilePrefix + SliceTo(isoTimestamp, 10) + FileExtension
  }

  /** What a download click produces: the new state and the file handed to the browser, if any. */
  datatype Download = Download(session: Session, file: Option<(string, Blob)>)

  /**
   `downloadRecording`: nothing happens without a blob; otherwise the blob
   is saved under the dated name and the modal closes.
   */
  function DownloadRecording(s: Session, isoTimestamp: string): (r: Download)
    ensures s.audioBlob.None? ==> r.session == s && r.file.None?
    ensures s.audioBlob.Some? ==>
      && r.file == Some((DownloadName(isoTimestamp), s.audioBlob.value))
      && r.session == CloseModal(s)
  {
    match s.audioBlob
    case None => Download(s, None)
    case Some(b) => Download(s.(showSaveModal := false), Some((DownloadName(isoTimestamp), b)))
  }

  /** `formatTime` of the recorder: minutes and seconds both padded to two digits ("04:09"). */
  function FormatTime(seconds: nat): (r: string)
    ensures seconds < 6000 ==> |r| == 5
    ensures |r| >= 5 && r[|r| - 3] == ':'
    ensures Renders(r[..|r| - 3], seconds / 60, 2)
    ensures Renders(r[|r| - 2..], seconds % 60, 2)
    ensures ParseClock(r) == Some(Clock(seconds / 60, seconds % 60))
  {
    var left, right := Pad2(seconds / 60), Pad2(seconds % 60);
    ParseClockOfParts(left, right);
    var r := left + ":" + right;
    assert r[..|r| - 3] == left && r[|r| - 2..] == right;
    r
  }

  // ---- sessions over event sequences ----

  function Ticks(s: Session, n: nat): Session
    decreases n
  {
    if n == 0 then s else Ticks(Tick(s), n - 1)
  }

  /** `n` seconds add `n` per firing interval and change nothing else. */
  lemma {:induction false} TicksCount(s: Session, n: nat)
    ensures Ticks(s, n).recordingTime == s.recordingTime + n * Firing(s)
    ensures Ticks(s, n).(recordingTime := s.recordingTime) == s
    decreases n
  {
    if n > 0 {
      TicksCount(Tick(s), n - 1);
      assert (n - 1) * Firing(s) + Firing(s) == n * Firing(s);
    }
  }

  /** After a start with no interval left behind, `n` seconds show exactly `n`. */
  lemma StartThenTicks(s: Session, n: nat)
    ensures !s.timerRunning && s.leakedTimers == 0 ==> Ticks(Start(s), n).recordingTime == n
    ensures Ticks(Start(s), n).recordingTime == n * Firing(Start(s))
  {
    TicksCount(Start(s), n);
  }

  /** The chunks of a sequence that carry data, in their original order. */
  function NonEmpty(cs: seq<Chunk>): (r: seq<Chunk>)
    ensures |r| <= |cs|
    ensures forall c :: c in r ==> c in cs && |c.bytes| > 0
    decreases |cs|
  {
    if |cs| == 0 then []
    else if |cs[|cs| - 1].bytes| > 0 then NonEmpty(cs[..|cs| - 1]) + [cs[|cs| - 1]]
    else NonEmpty(cs[..|cs| - 1])
  }

  /** Feeds the recorder's data events in arrival order. */
  function Receive(s: Session, cs: seq<Chunk>): Session
    decreases |cs|
  {
    if |cs| == 0 then s else DataAvailable(Receive(s, cs[..|cs| - 1]), cs[|cs| - 1])
  }

  /** The chunk list is what it held before followed by the non-empty received chunks, in order. */
  lemma {:induction false} ReceiveKeepsNonEmpty(s: Session, cs: seq<Chunk>)
    ensures Receive(s, cs).chunks == s.chunks + NonEmpty(cs)
    ensures Receive(s, cs).(chunks := s.chunks) == s
    decreases |cs|
  {
    if |cs| > 0 {
      ReceiveKeepsNonEmpty(s, cs[..|cs| - 1]);
    }
  }

  /** Dropping empty chunks does not change the bytes they join to. */
  lemma {:induction false} ConcatNonEmpty(cs: seq<Chunk>)
    ensures Concat(NonEmpty(cs)) == Concat(cs)
    decreases |cs|
  {
    if |cs| > 0 {
      var init, last := cs[..|cs| - 1], cs[|cs| - 1];
      assert cs == init + [last];
      ConcatNonEmpty(init);
      ConcatAppend(init, [last]);
      if |last.bytes| > 0 {
        ConcatAppend(NonEmpty(init), [last]);
      } else {
        assert Concat([last]) == [];
      }
    }
  }

  lemma {:induction false} ConcatAppend(a: seq<Chunk>, b: seq<Chunk>)
    ensures Concat(a + b) == Concat(a) + Concat(b)
    decreases |a|
  {
    if |a| > 0 {
      assert (a + b)[1..] == a[1..] + b;
      ConcatAppend(a[1..], b);
    } else {
      assert a + b == b;
    }
  }

  /**
   A whole session: start, receive chunks, stop, and the recorder's stop
   notification. The blob holds exactly the received bytes, in order, and
   the save modal is open.
   */
  lemma SessionBlob(s: Session, cs: seq<Chunk>)
    ensures var done := Stopped(Stop(Receive(Start(s), cs)));
      && done.audioBlob == Some(Blob(Concat(cs), BlobMimeType))
      && done.showSaveModal
      && !done.isRecording && !done.timerRunning
  {
    var started := Start(s);
    var received := Receive(started, cs);
    ReceiveKeepsNonEmpty(started, cs);
    assert received.chunks == NonEmpty(cs);
    var stopped := Stop(received);
    assert stopped.chunks == NonEmpty(cs);
    ConcatNonEmpty(cs);
  }

  /**
   The same session when the recorder delivers some data only after the
   stop button, before its stop notification (a recorder started without a
   time slice hands its data over then): the blob still holds every
   received byte in arrival order.
   */
  lemma SessionBlobLateData(s: Session, early: seq<Chunk>, late: seq<Chunk>)
    ensures var done := Stopped(Receive(Stop(Receive(Start(s), early)), late));
      && done.audioBlob == Some(Blob(Concat(early + late), BlobMimeType))
      && done.showSaveModal
      && !done.isRecording && !done.timerRunning
  {
    var started := Start(s);
    var received := Receive(started, early);
    ReceiveKeepsNonEmpty(started, early);
    var stopped := Stop(received);
    assert stopped.chunks == NonEmpty(early);
    ReceiveKeepsNonEmpty(stopped, late);
    var final := Receive(stopped, late);
    assert final.chunks == NonEmpty(early) + NonEmpty(late);
    ConcatAppend(NonEmpty(early), NonEmpty(late));
    ConcatNonEmpty(early);
    ConcatNonEmpty(late);
    ConcatAppend(early, late);
  }

  /**
   The first session after mount: from the initial state, start, receive
   and stop give the blob of the received bytes, with no earlier blob to
   replace.
   */
  lemma FirstSessionBlob(cs: seq<Chunk>)
    ensures Initial.audioBlob.None? && !Initial.isRecording && Initial.chunks == []
    ensures var done := Stopped(Stop(Receive(Start(Initial), cs)));
      && done.audioBlob == Some(Blob(Concat(cs), BlobMimeType))
      && done.showSaveModal && done.recordingTime == 0
  {
    SessionBlob(Initial, cs);
  }

  /**
   A second start while recording leaves the first interval behind: after a
   stop the panel is idle, yet the counter still advances every second.
   */
  lemma DoubleStartLeaksTimer(s: Session)
    requires !s.timerRunning
    ensures var t := Stop(Start(Start(s)));
      && !t.isRecording && !t.timerRunning
      && t.leakedTimers == s.leakedTimers + 1
      && Tick(t).recordingTime == t.recordingTime + 1 + s.leakedTimers
  {
  }

  // ---- the panel's own event sequences ----

  /** What can happen to the panel: its buttons, the timer and the recorder's callbacks. */
  datatype Event =
    | StartClick
    | StopClick
    | Second
    | Data(c: Chunk)
    | RecorderStopped
    | Dismiss

  /**
   One event. The panel shows the start button only while not recording and
   the stop button only while recording, so a click on the hidden one
   cannot happen.
   */
  function Step(s: Session, e: Event): Session
  {
    match e
    case StartClick => if s.isRecording then s else Start(s)
    case StopClick => if s.isRecording then Stop(s) else s
    case Second => Tick(s)
    case Data(c) => DataAvailable(s, c)
    case RecorderStopped => Stopped(s)
    case Dismiss => CloseModal(s)
  }

  function Run(s: Session, es: seq<Event>): Session
    decreases |es|
  {
    if |es| == 0 then s else Run(Step(s, es[0]), es[1..])
  }

  /** The timer handle holds an interval exactly while recording, and recording implies a recorder. */
  predicate TimerTracksRecording(s: Session)
  {
    && (s.timerRunning <==> s.isRecording)
    && (s.isRecording ==> s.recorder.Some?)
  }

  /**
   Driven through its own buttons, the panel never leaks an interval: from
   the mounted state every event sequence keeps the timer in step with
   recording and leaves no interval behind, so the counter moves by one a
   second while recording and stands still otherwise.
   */
  lemma {:induction false} RunKeepsOneTimer(s: Session, es: seq<Event>)
    requires TimerTracksRecording(s) && s.leakedTimers == 0
    ensures TimerTracksRecording(Run(s, es)) && Run(s, es).leakedTimers == 0
    ensures Firing(Run(s, es)) == if Run(s, es).isRecording then 1 else 0
    decreases |es|
  {
    if |es| > 0 {
      RunKeepsOneTimer(Step(s, es[0]), es[1..]);
    }
  }

  lemma StopIdempotent(s: Session)
    ensures Stop(Stop(s)) == Stop(s)
  {
  }
}

=== FILE: text.dfy ===
/**
 Decimal rendering of integers as the JavaScript template literal `${n}`
 produces it, its inverse, and a parser for the "m:ss" clock strings the
 deck and recorder displays show.
 */
module Text {
  import opened Common

  predicate IsDigit(c: char) { '0' <= c <= '9' }

  predicate AllDigits(s: string) { forall i :: 0 <= i < |s| ==> IsDigit(s[i]) }

  function DigitChar(d: nat): (c: char)
    requires d < 10
    ensures IsDigit(c)
  {
    ('0' as int + d) as char
  }

  function DigitValue(c: char): (d: nat)
    requires IsDigit(c)
    ensures d < 10
  {
    c as int - '0' as int
  }

  /** `${n}` for a non-negative integer: most significant digit first, no leading zero. */
  function NatToString(n: nat): (s: string)
    ensures |s| > 0 && AllDigits(s)
    ensures n < 10 <==> |s| == 1
    ensures 10 <= n < 100 ==> |s| == 2
    ensures |s| > 1 ==> s[0] != '0'
    decreases n
  {
    if n < 10 then [DigitChar(n)] else NatToString(n / 10) + [DigitChar(n % 10)]
  }

  /** `${i}` for any integer: a minus sign in front of the magnitude when negative. */
  function IntToString(i: int): (s: string)
    ensures |s| > 0
    ensures 0 <= i ==> AllDigits(s)
    ensures i < 0 ==> s[0] == '-'
    ensures 0 <= i ==> Renders(s, i, 1)
    ensures i < 0 ==> Renders(s[1..], -i, 1)
  {
    if i < 0 then
      ParseNatToString(-i);
      assert ("-" + NatToString(-i))[1..] == NatToString(-i);
      "-" + NatToString(-i)
    else
      ParseNatToString(i);
      NatToString(i)
  }

  /** The value of a string of decimal digits (leading zeros allowed). */
  function ParseNat(s: string): nat
    requires AllDigits(s)
  {
    if |s| == 0 then 0 else 10 * ParseNat(s[..|s| - 1]) + DigitValue(s[|s| - 1])
  }

  /**
   `s` writes `n` in decimal zero-padded to `width` digits: digits that read
   as `n`, at least `width` of them, and no leading zero beyond the padding.
   `RendersUnique` shows this pins the string down.
   */
  predicate Renders(s: string, n: nat, width: nat)
  {
    && AllDigits(s) && ParseNat(s) == n
    && |s| >= width
    && (|s| > width ==> s[0] != '0')
  }

  lemma {:induction false} ParseNatToString(n: nat)
    ensures ParseNat(NatToString(n)) == n
    ensures Renders(NatToString(n), n, 1)
    decreases n
  {
    if n >= 10 {
      var s := NatToString(n);
      assert s[..|s| - 1] == NatToString(n / 10);
      ParseNatToString(n / 10);
    }
  }

  /** `${n < 10 ? '0' : ''}${n}`: the two-digit zero padding both clock displays use. */
  function Pad2(n: nat): (s: string)
    ensures Renders(s, n, 2)
    ensures n < 100 ==> |s| == 2
    ensures n < 10 ==> s[0] == '0'
  {
    ParseNatToString(n);
    if n < 10 then
      var s := "0" + NatToString(n);
      assert s[..|s| - 1] == "0";
      s
    else
      NatToString(n)
  }

  /** A string of zeros reads as 0, and every string of digits reading as 0 is all zeros. */
  lemma {:induction false} ParseZero(s: string)
    requires AllDigits(s) && ParseNat(s) == 0
    ensures forall i :: 0 <= i < |s| ==> s[i] == '0'
    decreases |s|
  {
    if |s| > 0 {
      var init := s[..|s| - 1];
      assert AllDigits(init) by {
        forall i | 0 <= i < |init| ensures IsDigit(init[i]) { assert init[i] == s[i]; }
      }
      ParseZero(init);
      forall i | 0 <= i < |s| ensures s[i] == '0' {
        if i < |s| - 1 { assert s[i] == init[i]; }
      }
    }
  }

  /** Two strings rendering the same number at the same width are equal. */
  lemma {:induction false} RendersUnique(s1: string, s2: string, n: nat, width: nat)
    requires Renders(s1, n, width) && Renders(s2, n, width)
    ensures s1 == s2
    decreases |s1|
  {
    if |s1| == 0 || |s2| == 0 {
      ParseZero(s1);
      ParseZero(s2);
    } else {
      var p1, p2 := s1[..|s1| - 1], s2[..|s2| - 1];
      var c1, c2 := s1[|s1| - 1], s2[|s2| - 1];
      var w := if width > 0 then width - 1 else 0;
      assert AllDigits(p1) by {
        forall i | 0 <= i < |p1| ensures IsDigit(p1[i]) { assert p1[i] == s1[i]; }
      }
      assert AllDigits(p2) by {
        forall i | 0 <= i < |p2| ensures IsDigit(p2[i]) { assert p2[i] == s2[i]; }
      }
      assert n == 10 * ParseNat(p1) + DigitValue(c1);
      assert n == 10 * ParseNat(p2) + DigitValue(c2);
      assert ParseNat(p1) == n / 10 && DigitValue(c1) == n % 10;
      assert ParseNat(p2) == n / 10 && DigitValue(c2) == n % 10;
      assert c1 == c2;
      assert |p1| > 0 ==> p1[0] == s1[0];
      assert |p2| > 0 ==> p2[0] == s2[0];
      RendersUnique(p1, p2, n / 10, w);
      assert s1 == p1 + [c1] && s2 == p2 + [c2];
    }
  }

  /** A parsed "minutes:seconds" display. */
  datatype Clock = Clock(minutes: nat, seconds: nat)

  /** Position of the first occurrence of `c` in `s`. */
  function IndexOf(s: string, c: char): (r: Option<nat>)
    ensures r.Some? ==> r.value < |s| && s[r.value] == c && c !in s[..r.value]
    ensures r.None? ==> c !in s
  {
    if |s| == 0 then None
    else if s[0] == c then Some(0)
    else match IndexOf(s[1..], c)
      case None => None
      case Some(i) => assert s[1..][..i] == s[1..i + 1]; Some(i + 1)
  }

  /**
   Reads a display of the shape `<digits>:<digits>`; anything else (a minus
   sign, a missing colon, an empty side) is rejected.
   */
  function ParseClock(s: string): Option<Clock>
  {
    match IndexOf(s, ':')
    case None => None
    case Some(i) =>
      var left, right := s[..i], s[i + 1..];
      if |left| > 0 && |right| > 0 && AllDigits(left) && AllDigits(right)
      then Some(Clock(ParseNat(left), ParseNat(right)))
      else None
  }

  /** A display assembled from two digit strings parses back to their values. */
  lemma ParseClockOfParts(left: string, right: string)
    requires |left| > 0 && |right| > 0 && AllDigits(left) && AllDigits(right)
    ensures ParseClock(left + ":" + right) == Some(Clock(ParseNat(left), ParseNat(right)))
  {
    var s := left + ":" + right;
    assert ':' !in left by {
      forall i | 0 <= i < |left| ensures left[i] != ':' {
        assert IsDigit(left[i]);
      }
    }
    assert s[..|left|] == left;
    assert s[|left|] == ':';
    assert s[|left| + 1..] == right;
  }
}
